=== FILE: README.md ===
# WebRTC chat control plane in Dafny

This project models the control plane of a small peer-to-peer WebRTC chat:
everything that decides who talks to whom and when. The model covers five parts.

- **Peer session** (`RtcPeer`, module `Peer`). One WebRTC session with one remote
  peer. Its role, offerer or answerer, is fixed when it is constructed. The
  readiness flag turns raw channel open/close events into edge-only notifications.
- **Session manager** (`RtcEngine`, module `Engine`). It maps peer ids to sessions
  and keeps a clamped `readyPeerCount`. It raises the overall-ready callback when
  that count crosses zero, and it fans `send` out to the tracked sessions until
  one whose channel is not open throws.
- **Signaling client** (`Signaling`, module `Signaling`). It dispatches inbound
  relay messages on `type` and drops peer-addressed messages without a `src`. It
  encodes outbound `ice`/`offer`/`answer` messages with a `target`.
- **Relay** (`signaling/main.py`, module `Relay`). The Python server's
  `PeerManager` and the routing in `peer_handler`. It hands out ids, sends the
  welcome, broadcasts `addPeer`/`removePeer`, and forwards messages by swapping
  `target` for `src`.
- **Server-URL form** (`App` in `app.tsx`, module `App`). The state machine that
  accepts a `ws://` or `wss://` URL before the chat is shown.

Every handler is a pure step function. It takes the current state plus one input
and returns the new state together with what it did:

- calls into the WebRTC or WebSocket primitives,
- messages written to sockets,
- callbacks raised.

The browser and the network are an environment that delivers events:

- an offer or answer was created, or failed,
- an ICE candidate was gathered,
- a data channel arrived, opened, closed, or carried a message.

Wire messages are a `Json` datatype. JavaScript truthiness (`!msg.src`,
`!connConfig`) is modelled explicitly by `Values.Truthy`.

The engine keeps every session it has ever constructed (`sessions`, indexed by a
handle) beside the id map (`peers`). A session that was removed, or whose entry
was overwritten, still receives the browser's events, as its closures do in the
source. The count invariant is therefore stated twice:

- Over all sessions, it holds along every run (`EngineLemmas.CountIsReadySessions`).
- Over the tracked sessions, it holds along every run in which two conditions
  hold (`EngineLemmas.CountTracksReadyPeers`):
  - the browser never opens the channel of a closed connection;
  - no add overwrites the entry of a session that could still become ready.

Some behaviours of the code are easy to miss:

- **A second add for an existing id.** The code constructs a new session and
  overwrites the entry, without destroying the old one. If the old session was
  ready, the count stays raised while no tracked peer is ready; a concrete run is
  given in `EngineLemmas.OverwriteLeaksReadiness`.
- **Removing an unknown id.** The code calls `destroy` on `undefined` and throws
  before changing anything. The model returns the state unchanged with a
  `HandlerThrew` effect.
- **A `null` message.** Reading `type` of a JSON `null` throws (`Threw`).
  Unparsable text is outside the model (see Left out).
- **`send` with a channel that is not open.** `sendMsg` throws for a session
  whose data channel has not opened yet or has closed. The throw ends
  `send`'s loop, so the sessions visited after it get nothing.

## Model

| member | source | states |
|---|---|---|
| `Peer.New` | messaging/src/peer.ts:18-27 | a new session has the given id and role, no connection, no channel, is not ready and has nothing outstanding |
| `Peer.CallOnStateChange` | messaging/src/peer.ts:128-133 | afterwards `ready` equals the argument; the callback fires exactly when the argument differs from the old flag, with the new value |
| `Peer.StartOffer` | messaging/src/peer.ts:135-138 | with no connection nothing happens; with one, exactly one offer is started and nothing is signalled yet |
| `Peer.Initialize` | messaging/src/peer.ts:33-86 | without a truthy configuration the session is untouched; otherwise a connection is made, an offerer also opens channel "data" and starts one offer, an answerer does nothing more; nothing is signalled and readiness is untouched |
| `Peer.Teardown` | messaging/src/peer.ts:88-91 | afterwards the session is not ready and any connection is closed; a notification (false) is raised only when it was ready |
| `Peer.AddRemoteCandidate` | messaging/src/peer.ts:93-98 | a candidate reaches the connection iff it is truthy and a connection exists; the session itself never changes |
| `Peer.AcceptOffer` | messaging/src/peer.ts:100-109 | without a connection nothing happens; with one the remote description is set and one answer is started; nothing is signalled yet |
| `Peer.AcceptAnswer` | messaging/src/peer.ts:111-114 | the remote description is set iff a connection exists; nothing else changes |
| `Peer.Send` | messaging/src/peer.ts:124-126 | without a channel nothing happens; an open channel gets the text; a channel that exists but is not open (before its `onopen`, after its `onclose`) makes the call throw; the session never changes |
| `Peer.OnEvent` | messaging/src/peer.ts:38-146 | for each browser event: a non-null gathered candidate is relayed to this session's id; an offer or answer completion sets the local description and relays it once; a failure relays nothing; a channel open/close flips readiness only when a channel exists; every notification is an edge |
| `Peer.Apply` | messaging/src/peer.ts:33-126 | every entry point notifies only on a change of `ready`, keeps the id and the role, and never yields a channel without a connection |
| `PeerLemmas.NotificationsAlternate` | messaging/src/peer.ts:128-133 | along any sequence of inputs the notifications alternate (each differs from the previous one) and the last equals the final `ready` |
| `PeerLemmas.DestroyIsIdempotent` | messaging/src/peer.ts:88-91 | a second `destroy`, or a later channel close, changes nothing and notifies nobody |
| `PeerLemmas.InitWithoutConfigIsInert` | messaging/src/peer.ts:33-35 | after `init` without a configuration, candidates, offers, answers, gathered candidates, arriving channels and sends all do nothing |
| `PeerLemmas.OffererSignalsOneOffer` | messaging/src/peer.ts:51-66 | an offerer's `init` opens the channel and starts one offer; its completion is relayed once to this session's id; a repeated completion relays nothing |
| `PeerLemmas.OfferFailureIsSilent` | messaging/src/peer.ts:144-146 | a failed offer signals nothing, notifies nobody and leaves the session as `init` left it; a late completion is ignored |
| `PeerLemmas.AnswererWaitsForChannel` | messaging/src/peer.ts:67-84 | an answerer's `init` creates only the connection; it becomes ready only after a remote channel arrives and opens |
| `PeerLemmas.OneAnswerPerOffer` | messaging/src/peer.ts:100-109 | with a connection, an offer leads to exactly one answer relayed to this session's id, and the session returns to where it was |
| `PeerLemmas.GatheredCandidateRelay` | messaging/src/peer.ts:38-44 | the end-of-gathering marker (absent or null candidate) is not relayed; a truthy candidate is relayed to this session's id |
| `PeerLemmas.AnswererNeverOffers` | messaging/src/peer.ts:51-85 | an answering session never signals an offer, whatever inputs follow |
| `PeerLemmas.IdleStaysIdle` | messaging/src/peer.ts:88-91 | a destroyed (or never connected) session that is not ready stays not ready under any event the browser can deliver |
| `Signaling.SrcOf` | messaging/src/signaling.ts:104-108 | no sender exactly when `src` is missing or falsy; a sender id is a non-empty string equal to `src` |
| `Signaling.FromSender` | messaging/src/signaling.ts:103-149 | without a sender no call is made; with one exactly one call, addressed to it |
| `Signaling.OnWelcome` | messaging/src/signaling.ts:96-101 | a `peers` value that is not an array throws; otherwise one `welcomePeer` per entry, in list order, each with that entry's id |
| `Signaling.OnMessage` | messaging/src/signaling.ts:61-74 | `null` throws; a non-object or unknown `type` calls nothing; `welcome` is handled by `onWelcome`; every other type makes at most one call |
| `Signaling.Encode` | messaging/src/signaling.ts:81-94 | an outbound message has exactly the keys `type`, `target` and the kind's payload key, with `target` the peer id, the payload unchanged, and no `src` |
| `Signaling.Start` | messaging/src/signaling.ts:50-51 | afterwards the client counts as started and has asked for one socket to the given URL; the constructor rejecting the URL is not modelled (see Left out) |
| `Signaling.Stop` | messaging/src/signaling.ts:77-79 | closes the socket only if `start` created one |
| `Signaling.SignalTo` | messaging/src/signaling.ts:81-94 | before `start` nothing is sent; after it exactly one message, the encoded one |
| `SignalingLemmas.TargetedMessageRoutes` | messaging/src/signaling.ts:121-149 | `ice`/`offer`/`answer` with a sender make exactly the matching call with `peerId = src` and the payload as it arrived |
| `SignalingLemmas.NoticeRoutes` | messaging/src/signaling.ts:103-119 | `addPeer`/`removePeer` with a sender make exactly one `addPeer`/`removePeer` call for it |
| `SignalingLemmas.MissingSrcIsDropped` | messaging/src/signaling.ts:103-149 | every peer-addressed type with a missing or falsy `src` makes no call |
| `SignalingLemmas.EachTypeHasOneHandler` | messaging/src/signaling.ts:64-73 | each call's kind is determined by the type, in both directions, and calls happen only for the six known types |
| `SignalingLemmas.WelcomeIgnoresSrc` | messaging/src/signaling.ts:96-101 | a welcome's calls do not depend on `src` and are one `welcomePeer` per listed id, in order |
| `SignalingLemmas.SilentBeforeStart` | messaging/src/signaling.ts:77-94 | before `start`, sending and `stop` do nothing; after it they send the encoded message and close |
| `Engine.CountReadiness` | messaging/src/engine.ts:94-107 | the count moves by one in the reported direction and is clamped at zero; the callback fires iff the count crosses zero, with `count > 0` |
| `Engine.Deliver` | messaging/src/engine.ts:94-107 | a session's step replaces that session only; the count changes only through a notification, as `CountReadiness` says |
| `Engine.Init` | messaging/src/engine.ts:52-58 | the first call records server and configuration; later calls change nothing |
| `Engine.Start` | messaging/src/engine.ts:60-62 | asks for the signaling socket to the recorded server and marks signaling started; the constructor rejecting the URL is not modelled (see Left out) |
| `Engine.Stop` | messaging/src/engine.ts:64-66 | closes the socket only if one was opened; nothing else changes |
| `Engine.AddSession` | messaging/src/engine.ts:92-114 | a new not-ready session with the given id and role is appended and the id now maps to it, overwriting any earlier entry; earlier sessions and the count are unchanged; its effects all concern the new session |
| `Engine.RemoveSession` | messaging/src/engine.ts:116-122 | an unknown id throws and changes nothing; otherwise that session is destroyed and only that key is deleted |
| `Engine.Forward` | messaging/src/engine.ts:124-150 | a message for an unknown id leaves the engine unchanged with no effect; otherwise it reaches that id's session only |
| `Engine.ApplyOp` | messaging/src/engine.ts:18-37 | `welcomePeer` and `addPeer` store a new session under the id, offering and answering respectively; `removePeer` deletes only that id, or throws and changes nothing for an unknown id; the three `process` calls leave the map alone, change at most the id's own session, and do nothing for an unknown id |
| `Engine.OnInbound` | messaging/src/engine.ts:18-37 | an inbound message becomes the signaling client's calls on the engine, in order; a throwing handler leaves the engine unchanged |
| `Engine.OnSessionEvent` | messaging/src/engine.ts:94-110 | a browser event for a session, tracked or not, changes only that session, never the id map, and moves the count only through its notification |
| `Engine.Send` | messaging/src/engine.ts:76-80 | tracked ids are visited at most once each, in some order; every visited session before the last has a channel that is absent or open; the loop visits all ids unless it stops at a session whose channel is not open, and then it ends with a throw; a session receives the text iff it was visited with its channel open; with no such blocking session every id is visited and nothing throws; the engine is unchanged |
| `EngineLemmas.OverallReadyIsEdgeTriggered` | messaging/src/engine.ts:105-106 | along any run the overall-ready callbacks alternate and the last one equals `readyPeerCount > 0`; the count is never negative |
| `EngineLemmas.DeliverKeepsInv` | messaging/src/engine.ts:95-103 | a session step keeps the count equal to the number of ready sessions, and a not-ready notification always finds a positive count (the clamp never fires) |
| `EngineLemmas.CountIsReadySessions` | messaging/src/engine.ts:92-122 | along any run `readyPeerCount` equals the number of ready sessions ever constructed |
| `EngineLemmas.CountMatchesTrackedReady` | messaging/src/engine.ts:92-122 | while every untracked session is idle, `readyPeerCount` equals the number of tracked ids whose session is ready |
| `EngineLemmas.AddSessionKeepsOrphansIdle` | messaging/src/engine.ts:92-114 | adding a session keeps untracked sessions idle when the overwritten one, if any, was idle |
| `EngineLemmas.RemoveSessionKeepsOrphansIdle` | messaging/src/engine.ts:116-122 | removing a session keeps untracked sessions idle |
| `EngineLemmas.SessionEventKeepsOrphansIdle` | messaging/src/engine.ts:94-107 | no browser event wakes an untracked idle session |
| `EngineLemmas.ForwardKeepsOrphansIdle` | messaging/src/engine.ts:124-150 | forwarding to a tracked session leaves every untracked session idle |
| `EngineLemmas.ApplyOpKeepsOrphansIdle` | messaging/src/engine.ts:18-37 | every call of the signaling client keeps untracked sessions idle, provided an add does not overwrite a session that could still become ready |
| `EngineLemmas.StepKeepsOrphansIdle` | messaging/src/engine.ts:18-150 | every command keeps untracked sessions idle under the same proviso and when the browser does not open a closed connection's channel |
| `EngineLemmas.CountTracksReadyPeers` | messaging/src/engine.ts:92-122 | along every run meeting those conditions, `readyPeerCount` stays equal to the number of tracked peers whose session is ready |
| `EngineLemmas.TrackedCountFromInitial` | messaging/src/engine.ts:92-122 | from the engine's initial state, every such run ends with `readyPeerCount` equal to the number of tracked ready peers |
| `EngineLemmas.OverwriteLeaksReadiness` | messaging/src/engine.ts:112 | overwriting a ready session's entry leaves a count of 1 with no tracked ready session |
| `EngineLemmas.InitOnlyOnce` | messaging/src/engine.ts:52-58 | `init` records server and configuration, and a second `init` changes nothing |
| `EngineLemmas.WelcomeAppendsOfferers` | messaging/src/engine.ts:87-114 | a welcome appends one offering session per listed id, in order, keeps earlier sessions and the count |
| `EngineLemmas.WelcomeTracksListedIds` | messaging/src/engine.ts:87-114 | after a welcome exactly the earlier and the listed ids are tracked, and unlisted ids keep their sessions |
| `EngineLemmas.AddedOffererStartsOffer` | messaging/src/engine.ts:92-111 | with a configuration, an offering session's effects are: connect, open channel "data", start an offer |
| `EngineLemmas.UnknownIdIsDropped` | messaging/src/engine.ts:124-150 | an `ice`/`offer`/`answer` for an untracked id leaves the engine unchanged with no effect |
| `EngineLemmas.UnknownRemovalThrows` | messaging/src/engine.ts:116-120 | `removePeer` of an untracked id throws and changes nothing |
| `Relay.Decimal` | signaling/main.py:42 | `str` of a counter value is a non-empty string of digits without a leading zero |
| `Relay.DecimalRoundTrip` | signaling/main.py:42 | reading back the decimal form gives the counter value |
| `Relay.DecimalInjective` | signaling/main.py:42 | different counter values give different ids |
| `Relay.GenPeerId` | signaling/main.py:13-16 | returns the counter and advances it by one |
| `Relay.AddPeer` | signaling/main.py:18-19 | the id maps to the socket; a new id goes last in the key order, an existing one keeps its place |
| `Relay.RemovePeer` | signaling/main.py:22-23 | an absent id changes nothing; otherwise only that key is removed, and the remaining ids keep their relative order |
| `Relay.WithoutKeepsOrder` | signaling/main.py:22-23 | removing the one occurrence of an id from the insertion order closes the gap and leaves every other id in place, as a dict `pop` does |
| `Relay.GetAllPeerIds` | signaling/main.py:26-27 | the registered ids, each once |
| `Relay.GetPeerWs` | signaling/main.py:29-32 | `None` exactly when the id is absent, otherwise its socket |
| `Relay.Welcome` | signaling/main.py:45-47 | the welcome has exactly the fields `type` = "welcome", `id` = the newcomer's id and `peers` = the given ids as strings, in order |
| `Relay.Notice` | signaling/main.py:49 | a notice has exactly the fields `type` (`addPeer` or `removePeer`) and `src` = the id it is about |
| `Relay.Broadcast` | signaling/main.py:48-50 | one delivery per listed peer, in list order, to that peer's socket, all with the same message |
| `Relay.Connect` | signaling/main.py:41-50 | the next id is registered with the new socket; the newcomer gets the welcome listing the ids present before; each of those gets an `addPeer` |
| `Relay.Forwarded` | signaling/main.py:63-64 | the forwarded message has `target` removed, `src` set to the sender, every other field unchanged |
| `Relay.Route` | signaling/main.py:58-65 | a message goes out iff it is an object with `type` and a string `target` that is registered, and then to that target's socket, forwarded |
| `Relay.Disconnect` | signaling/main.py:68-74 | the id is unregistered and each remaining peer, in order, gets a `removePeer` with the departed id |
| `Relay.DisconnectKeepsOrder` | signaling/main.py:68-74 | after a disconnect the remaining ids keep their relative order: the departed id's slot is closed and nobody else moves |
| `Relay.Receive` | signaling/main.py:51-74 | a routable message is forwarded with no state change; any other message ends the handler and disconnects it |
| `Relay.Step` | signaling/main.py:41-74 | each event keeps the relay invariant; a new connection becomes served and registers one more id; a closed connection is no longer served and its id is unregistered; events on a connection that is not served (or a second open of a served one) change nothing |
| `Relay.Run` | signaling/main.py:41-74 | along any run, ids stay unique, in step with the key order, and in one-to-one correspondence with the serving handlers |
| `Relay.FreshIdIsNew` | signaling/main.py:13-16 | the next id is never already registered |
| `RelayLemmas.IdsCountFromOne` | signaling/main.py:10-16 | successive ids are consecutive counter values, and their decimal forms never repeat |
| `RelayLemmas.FirstIds` | signaling/main.py:10-16 | a fresh manager hands out 1, 2, 3 |
| `RelayLemmas.WelcomeListsOthers` | signaling/main.py:42-47 | the welcome goes to the newcomer with its id and lists exactly the ids present before it, in joining order, never its own |
| `RelayLemmas.AddPeerOncePerExisting` | signaling/main.py:48-50 | each peer present before gets exactly one `addPeer` with the new id as `src`; the newcomer gets none |
| `RelayLemmas.ForwardSwapsTargetForSrc` | signaling/main.py:58-65 | a message to a registered target reaches that target's socket only, with `target` swapped for the sender's `src` |
| `RelayLemmas.UnknownTargetDropsSender` | signaling/main.py:59-74 | a message to an unregistered target reaches nobody; the sender is unregistered and only `removePeer` notices go out |
| `RelayLemmas.RemovePeerOncePerRemaining` | signaling/main.py:68-74 | after a disconnect each remaining peer gets exactly one `removePeer` with the departed id; the departed socket gets nothing |
| `RelayLemmas.RemoveUnknownIsNoOp` | signaling/main.py:22-32 | removing an absent id changes nothing, and its lookup is `None` |
| `App.OnSignalingServerChanged` | messaging/src/app.tsx:30-32 | editing records the URL, clears the error and goes back to the form |
| `App.OnSignalingServerSet` | messaging/src/app.tsx:34-43 | an empty URL changes nothing; a URL starting with neither `ws://` nor `wss://` sets the error only; any other URL is accepted |
| `App.Render` | messaging/src/app.tsx:45-57 | the chat is shown iff the URL was accepted, with that URL; otherwise the form with the error text |
| `App.RunKeepsConsistent` | messaging/src/app.tsx:30-57 | whatever the user does, an accepted URL starts with `ws://` or `wss://` and shows no error, so the chat only ever gets such a URL |
| `App.SubmitIsIdempotent` | messaging/src/app.tsx:34-43 | pressing the button twice is the same as pressing it once |
| `App.TypeThenSubmit` | messaging/src/app.tsx:30-43 | typing a URL and pressing the button shows the chat iff it is a WebSocket URL, otherwise the prefix error (or nothing for an empty URL) |
| `Protocol.ForwardedSignalRoundTrip` | signaling/main.py:63-65 | an encoded `ice`/`offer`/`answer`, forwarded by the relay, makes the receiving client call the matching handler with the sender's id and the payload unchanged |
| `Protocol.RelayDeliversSignal` | signaling/main.py:58-65 | end to end: a client's signal for a registered peer reaches that peer's socket only and makes the matching call addressed to the sender |
| `Protocol.RegisteredIdsAreNonEmpty` | signaling/main.py:42 | every id the relay has registered is a non-empty string, so a truthy `src` at the client |
| `Protocol.WelcomeRoundTrip` | signaling/main.py:45-47 | the relay's welcome makes the client call `welcomePeer` for each listed id, in order |
| `Protocol.NoticeRoundTrip` | signaling/main.py:48-50 | the relay's `addPeer`/`removePeer` notices make the client call `addPeer`/`removePeer` for the id they name |
| `Protocol.JoiningClientOffersToEveryone` | messaging/src/engine.ts:87-114 | a client receiving the welcome creates one offering session per peer already present, under that peer's id |

## Left out

- WebRTC and WebSocket primitives are effects (`Peer.Primitive`, `Signaling.SocketCall`). ICE candidates and session descriptions are opaque `Json` payloads.
- Promise timing is not modelled: an offer or answer completion is a separate environment event, and the browser may deliver events in any order. The only assumption is that a closed connection's channel never opens (`Peer.EnvSound`), and only the idle-session lemmas use it.
- `Engine.Send`: the order in which `Object.values` visits sessions is left open.
- `Peer.Send` and `Engine.Send`: a channel counts as open exactly while `ready` is set, that is from its `onopen` to its `onclose`. The browser's channel state and `ready` disagree in two windows that the model does not follow. First, a channel that `ondatachannel` hands to an answering session is already open before its `onopen` runs. There the code sends and the model throws. Second, after the remote side closes the channel it is "closing" until `onclose` runs. There the code throws and the model sends. The channel's `closing` event is not modelled.
- `Signaling.SignalTo`: `WebSocket.send` on a socket that is still connecting throws. This is not modelled; a started client always sends.
- `Signaling.Start`: a second `start` opens another socket without closing the first. The model only records that the client has started.
- `Signaling.Start` and `Engine.Start`: the `WebSocket` constructor (messaging/src/signaling.ts:51) throws a `SyntaxError` on a URL it cannot parse. The form's prefix check (messaging/src/app.tsx:38-41) lets such URLs through, for example `ws://` with no host. The model does not follow this throw and treats every URL as giving a socket. In the code, `ws` stays `null` and no `onmessage` is installed, so the client stays silent for good: every later `signal*` and `stop` does nothing, and no relay message arrives. The model instead has `SignalTo` send and `Stop` close after such a start.
- `JSON.parse` and `json.loads` failures are not modelled; both sides start from a parsed value. The client's `onmessage` does not guard the parse, so unparsable text throws. On the relay, `json.loads` (signaling/main.py:56) raising on unparsable text is caught by the `except` at signaling/main.py:66-67. The `finally` at signaling/main.py:68-74 then disconnects the sender, just as for a modelled message that is not a dict (`Relay.Receive`).
- JSON numbers are integers only; no message field relies on fractions.
- A truthy `src` that is not a string, and a welcome entry that is not a string, are not modelled (`NotModelled`). JavaScript would coerce them to property keys.
- Peer ids that name inherited object properties (such as `constructor`) are not modelled. The engine's map is a plain map.
- The relay handles each event atomically. Interleaving of asyncio handlers at `await` points is not modelled.
- A socket that fails while the relay writes to it is not modelled. Neither are `ws.recv()` returning `None`, server setup, or dictionary key order in the written JSON.
- The model has no concept of a connection object being reused. `Relay.Connect` therefore requires a socket that no handler serves yet; `Relay.Step` ignores events that cannot occur.
- `App`: the ICE-server list fetched at mount (twilio.ts), React's batching of `setState`, and the rendering of the chat view are not modelled.
- The logging, `main.tsx`, `AutoScrollingTextarea.tsx` and `twilio.ts` are not part of this model.
- The callback setters (`setStateChangeCallback`, `setOnMsgCallback`, `setOnReadyStateChangeCallback`) are not modelled as operations. Their callbacks appear as effects: `Engine.ReadyChange`, `Engine.Message`, and `Peer.Step.notify`.

=== FILE: app.dfy ===
/** The signaling-server URL form of the top-level component
    (messaging/src/app.tsx): the URL typed so far, whether it has been
    accepted, and the error text shown under the form. */
module App {
  import opened Values

  datatype AppState = AppState(signalingServer: string, signalingServerSet: bool, signalingServerError: string)

  /** What `render` shows: the URL form with its error text, or the chat
      connected to the accepted server. */
  datatype View = UrlForm(error: string) | ChatView(server: string)

  /** What the user can do: edit the URL field, or press the button. */
  datatype Event = Changed(url: string) | Submitted

  const Initial: AppState := AppState("", false, "")

  const UrlError: string := "Signaling Server URL must start with ws:// or wss://"

  /** The only URLs the form accepts. */
  predicate WebSocketUrl(url: string) {
    StartsWith(url, "ws://") || StartsWith(url, "wss://")
  }

  /** `onSignalingServerChanged`: record the text, clear the error, and go
      back to the form. */
  function OnSignalingServerChanged(s: AppState, url: string): (r: AppState)
    ensures r.signalingServer == url
    ensures !r.signalingServerSet && r.signalingServerError == ""
  {
    AppState(url, false, "")
  }

  /** `onSignalingServerSet`: an empty URL changes nothing; a URL that does
      not start with `ws://` or `wss://` sets the error and nothing else; any
      other URL is accepted. */
  function OnSignalingServerSet(s: AppState): (r: AppState)
    ensures s.signalingServer == "" ==> r == s
    ensures s.signalingServer != "" && !WebSocketUrl(s.signalingServer) ==>
      r == s.(signalingServerError := UrlError)
    ensures WebSocketUrl(s.signalingServer) ==> r == s.(signalingServerSet := true)
  {
    var url := s.signalingServer;
    if |url| <= 0 then s
    else if !(StartsWith(url, "ws://") || StartsWith(url, "wss://")) then s.(signalingServerError := UrlError)
    else s.(signalingServerSet := true)
  }

  /** `render`: the chat exactly when the URL has been accepted. */
  function Render(s: AppState): (v: View)
    ensures v.ChatView? <==> s.signalingServerSet
    ensures v.ChatView? ==> v.server == s.signalingServer
    ensures v.UrlForm? ==> v.error == s.signalingServerError
  {
    if !s.signalingServerSet then UrlForm(s.signalingServerError) else ChatView(s.signalingServer)
  }

  function Handle(s: AppState, ev: Event): AppState {
    match ev
    case Changed(url) => OnSignalingServerChanged(s, url)
    case Submitted => OnSignalingServerSet(s)
  }

  function Run(s: AppState, evs: seq<Event>): AppState
    decreases |evs|
  {
    if evs == [] then s else Run(Handle(s, evs[0]), evs[1..])
  }

  /** The states the form can be in: an accepted URL is a WebSocket URL and
      shows no error; an error is only ever the prefix message, about the URL
      in the field, while the form is shown. */
  predicate Consistent(s: AppState) {
    && (s.signalingServerSet ==> WebSocketUrl(s.signalingServer) && s.signalingServerError == "")
    && (s.signalingServerError != "" ==>
          s.signalingServerError == UrlError && !s.signalingServerSet && !WebSocketUrl(s.signalingServer))
  }

  lemma HandleKeepsConsistent(s: AppState, ev: Event)
    requires Consistent(s)
    ensures Consistent(Handle(s, ev))
  {
  }

  /** Whatever the user does, the form stays consistent; in particular the
      chat is only ever shown for a `ws://` or `wss://` URL. */
  lemma {:induction false} RunKeepsConsistent(s: AppState, evs: seq<Event>)
    requires Consistent(s)
    ensures Consistent(Run(s, evs))
    ensures Render(Run(s, evs)).ChatView? ==> WebSocketUrl(Render(Run(s, evs)).server)
    decreases |evs|
  {
    if evs != [] {
      HandleKeepsConsistent(s, evs[0]);
      RunKeepsConsistent(Handle(s, evs[0]), evs[1..]);
    }
  }

  /** Pressing the button twice is the same as pressing it once. */
  lemma SubmitIsIdempotent(s: AppState)
    ensures OnSignalingServerSet(OnSignalingServerSet(s)) == OnSignalingServerSet(s)
  {
  }

  /** Typing a URL and pressing the button shows the chat for that URL exactly
      when it is a WebSocket URL, and otherwise the form with the error (or, for
      an empty URL, with no error). */
  lemma TypeThenSubmit(s: AppState, url: string)
    ensures var v := Render(Run(s, [Changed(url), Submitted]));
      && (v == ChatView(url) <==> WebSocketUrl(url))
      && (url != "" && !WebSocketUrl(url) ==> v == UrlForm(UrlError))
      && (url == "" ==> v == UrlForm(""))
  {
    assert Run(s, [Changed(url), Submitted]) == OnSignalingServerSet(OnSignalingServerChanged(s, url)) by {
      assert [Changed(url), Submitted][1..] == [Submitted];
      assert [Submitted][1..] == [];
    }
  }
}

=== FILE: engine.dfy ===
/** The session manager (`RtcEngine` in messaging/src/engine.ts).

    The engine owns the map from peer id to session and the count of ready
    sessions. Every session the engine ever constructed stays in `sessions`,
    addressed by its handle (its index): a session that was removed from the
    map, or whose map entry was overwritten, still exists in the source as an
    object whose callbacks can fire, and its readiness callback still updates
    the count. */
module Engine {
  import opened Values
  import Peer
  import Signaling

  /** What one call into the engine makes happen outside it, in order. */
  datatype Effect =
    | Socket(call: Signaling.SocketCall)
    | Rtc(session: nat, op: Peer.Primitive)
    | ReadyChange(isReady: bool)
    | Message(peerId: string, text: string)
    | HandlerThrew

  datatype Engine = Engine(
    sessions: seq<Peer.Peer>,
    peers: map<string, nat>,
    initialized: bool,
    signalingServer: string,
    rtcConfig: Option<Json>,
    readyPeerCount: int,
    signaling: Signaling.Client)

  datatype Outcome = Outcome(engine: Engine, effects: seq<Effect>)

  /** The readiness closure's result: the new count and the overall-ready callback, if it fired. */
  datatype Tally = Tally(count: int, fired: Option<bool>)

  const DefaultServer: string := "ws://localhost:8514"

  const Initial: Engine := Engine([], map[], false, DefaultServer, None, 0, Signaling.Initial)

  /** Every tracked id refers to a constructed session. */
  predicate HandlesValid(e: Engine) {
    forall id :: id in e.peers ==> e.peers[id] < |e.sessions|
  }

  /** Distinct ids refer to distinct sessions (each `_addPeer` constructs a new one). */
  predicate Injective(e: Engine) {
    forall a, b :: a in e.peers && b in e.peers && a != b ==> e.peers[a] != e.peers[b]
  }

  /** Handles of the sessions whose `ready` flag is set, tracked or not. */
  function ReadySet(sessions: seq<Peer.Peer>): set<nat> {
    set h: nat | h < |sessions| && sessions[h].ready
  }

  /** The engine's invariant: the map is well formed, every tracked session
      carries its key as its id, and `readyPeerCount` is exactly the number of
      sessions whose `ready` flag is set. */
  predicate Inv(e: Engine) {
    && HandlesValid(e)
    && Injective(e)
    && (forall id :: id in e.peers ==> e.sessions[e.peers[id]].id == id)
    && (forall h :: 0 <= h < |e.sessions| ==> Peer.Coherent(e.sessions[h]))
    && e.readyPeerCount == |ReadySet(e.sessions)|
  }

  /** The readiness closure installed by `_addPeer`: move the count one step,
      clamp it at zero, and fire the overall-ready callback only when the count
      crosses zero. */
  function CountReadiness(oldCount: int, isReady: bool): (t: Tally)
    ensures t.count >= 0
    ensures oldCount >= 0 && isReady ==> t.count == oldCount + 1
    ensures oldCount > 0 && !isReady ==> t.count == oldCount - 1
    ensures oldCount == 0 && !isReady ==> t.count == 0
    ensures oldCount >= 0 ==> (t.fired.Some? <==> (oldCount > 0) != (t.count > 0))
    ensures t.fired.Some? ==> t.fired.value == (t.count > 0)
  {
    var stepped := if isReady then oldCount + 1 else oldCount - 1;
    var count := if stepped < 0 then 0 else stepped;
    if !((oldCount > 0 && count > 0) || (oldCount == 0 && count == 0)) then Tally(count, Some(count > 0))
    else Tally(count, None)
  }

  /** The socket calls of the signaling client, as effects. */
  function Sockets(calls: seq<Signaling.SocketCall>): (r: seq<Effect>)
    ensures |r| == |calls|
    ensures forall i :: 0 <= i < |r| ==> r[i] == Socket(calls[i])
  {
    if calls == [] then [] else [Socket(calls[0])] + Sockets(calls[1..])
  }

  /** What one output of session `h` becomes: primitive calls stay addressed to
      the session, relays go through the signaling client, received text is
      passed up tagged with the id the session was created for, and a call
      that threw ends the handler. */
  function LiftOut(e: Engine, h: nat, o: Peer.Out): (r: seq<Effect>)
    requires h < |e.sessions|
    ensures forall i :: 0 <= i < |r| ==> !r[i].ReadyChange?
    ensures !o.Raised? ==> forall i :: 0 <= i < |r| ==> !r[i].HandlerThrew?
    ensures o.Raised? ==> r == [HandlerThrew]
    ensures o.Prim? ==> r == [Rtc(h, o.op)]
    ensures o.Received? ==> r == [Message(e.sessions[h].id, o.text)]
  {
    match o
    case Prim(op) => [Rtc(h, op)]
    case SignalIce(target, c) => Sockets(Signaling.SignalTo(e.signaling, Signaling.IceSignal, target, c))
    case SignalOffer(target, sdp) => Sockets(Signaling.SignalTo(e.signaling, Signaling.OfferSignal, target, sdp))
    case SignalAnswer(target, sdp) => Sockets(Signaling.SignalTo(e.signaling, Signaling.AnswerSignal, target, sdp))
    case Received(text) => [Message(e.sessions[h].id, text)]
    case Raised => [HandlerThrew]
  }

  /** The outputs of session `h`, in order. None of them touches readiness. */
  function LiftAll(e: Engine, h: nat, outs: seq<Peer.Out>): (r: seq<Effect>)
    requires h < |e.sessions|
    ensures forall i :: 0 <= i < |r| ==> !r[i].ReadyChange?
    ensures (forall i :: 0 <= i < |outs| ==> !outs[i].Raised?) ==> forall i :: 0 <= i < |r| ==> !r[i].HandlerThrew?
    ensures forall i :: 0 <= i < |r| && r[i].Rtc? ==> r[i].session == h
    ensures (forall i :: 0 <= i < |outs| ==> outs[i].Prim?) ==>
      |r| == |outs| && forall i :: 0 <= i < |r| ==> r[i] == Rtc(h, outs[i].op)
    decreases |outs|
  {
    if outs == [] then [] else LiftOut(e, h, outs[0]) + LiftAll(e, h, outs[1..])
  }

  /** Installs the result of one handler of session `h`: the session's new
      state, its outputs, and then its readiness notification, if any. */
  function Deliver(e: Engine, h: nat, st: Peer.Step): (r: Outcome)
    requires h < |e.sessions|
    ensures r.engine == e.(sessions := e.sessions[h := st.peer], readyPeerCount := r.engine.readyPeerCount)
    ensures st.notify.None? ==> r.engine.readyPeerCount == e.readyPeerCount
    ensures st.notify.Some? ==> r.engine.readyPeerCount == CountReadiness(e.readyPeerCount, st.notify.value).count
  {
    var e1 := e.(sessions := e.sessions[h := st.peer]);
    var effects := LiftAll(e1, h, st.out);
    match st.notify
    case None => Outcome(e1, effects)
    case Some(isReady) =>
      var t := CountReadiness(e1.readyPeerCount, isReady);
      Outcome(e1.(readyPeerCount := t.count), effects + (if t.fired.Some? then [ReadyChange(t.fired.value)] else []))
  }

  /** `init`: records the server and configuration on the first call only. */
  function Init(e: Engine, server: string, config: Option<Json>): (r: Engine)
    ensures e.initialized ==> r == e
    ensures !e.initialized ==> r == e.(initialized := true, signalingServer := server, rtcConfig := config)
  {
    if e.initialized then e
    else e.(initialized := true, signalingServer := server, rtcConfig := config)
  }

  /** `start`: opens the relay socket at the recorded server. */
  function Start(e: Engine): (r: Outcome)
    ensures r.engine == e.(signaling := Signaling.Client(true))
    ensures r.effects == [Socket(Signaling.Open(e.signalingServer))]
  {
    var started := Signaling.Start(e.signaling, e.signalingServer);
    Outcome(e.(signaling := started.0), Sockets(started.1))
  }

  /** `stop`: closes the relay socket if it was opened. */
  function Stop(e: Engine): (r: Outcome)
    ensures r.engine == e
    ensures r.effects == (if e.signaling.started then [Socket(Signaling.Close)] else [])
  {
    Outcome(e, Sockets(Signaling.Stop(e.signaling)))
  }

  /** `_addPeer` (behind `welcomePeer` and `addPeer`): constructs a new session
      in the given role, initialises it with the recorded configuration and
      stores it under `id`. An existing entry for `id` is overwritten: its
      session is not destroyed and keeps its handle. */
  function AddSession(e: Engine, id: string, isOffering: bool): (r: Outcome)
    ensures |r.engine.sessions| == |e.sessions| + 1
    ensures r.engine.sessions[..|e.sessions|] == e.sessions
    ensures r.engine.peers == e.peers[id := |e.sessions|]
    ensures var p := r.engine.sessions[|e.sessions|];
      p.id == id && p.isOffering == isOffering && !p.ready
    ensures r.engine.readyPeerCount == e.readyPeerCount
    ensures r.engine.signaling == e.signaling && r.engine.rtcConfig == e.rtcConfig
    ensures forall i :: 0 <= i < |r.effects| ==> r.effects[i].Rtc? && r.effects[i].session == |e.sessions|
  {
    var h := |e.sessions|;
    var st := Peer.Initialize(Peer.New(id, isOffering), e.rtcConfig);
    var e1 := e.(sessions := e.sessions + [st.peer], peers := e.peers[id := h]);
    Outcome(e1, LiftAll(e1, h, st.out))
  }

  /** `removePeer`: destroys the session under `id` and deletes that key. With
      no entry for `id` the source reads `destroy` of `undefined` and throws
      before changing anything. */
  function RemoveSession(e: Engine, id: string): (r: Outcome)
    requires HandlesValid(e)
    ensures id !in e.peers ==> r == Outcome(e, [HandlerThrew])
    ensures id in e.peers ==>
      && r.engine.peers == e.peers - {id}
      && r.engine.sessions == e.sessions[e.peers[id] := Peer.Teardown(e.sessions[e.peers[id]]).peer]
  {
    if id !in e.peers then Outcome(e, [HandlerThrew])
    else
      var h := e.peers[id];
      var o := Deliver(e, h, Peer.Teardown(e.sessions[h]));
      Outcome(o.engine.(peers := o.engine.peers - {id}), o.effects)
  }

  /** `processIceCandidate`, `processOffer`, `processAnswer`: forward to the
      session under `id`; a message for an unknown id is dropped. */
  function Forward(e: Engine, id: string, input: Peer.Input): (r: Outcome)
    requires HandlesValid(e)
    ensures id !in e.peers ==> r == Outcome(e, [])
    ensures id in e.peers ==> r == Deliver(e, e.peers[id], Peer.Apply(e.sessions[e.peers[id]], input))
  {
    if id !in e.peers then Outcome(e, [])
    else Deliver(e, e.peers[id], Peer.Apply(e.sessions[e.peers[id]], input))
  }

  /** One call from the signaling client (the `peerOp` object): the two add
      calls store a new session under the id, in the role their name says;
      `removePeer` deletes the id (or throws); the three `process` calls
      leave the map alone and touch at most the id's own session. */
  function ApplyOp(e: Engine, op: Signaling.PeerOp): (r: Outcome)
    requires HandlesValid(e)
    ensures HandlesValid(r.engine)
    ensures (op.WelcomePeer? || op.AddPeer?) ==>
      && |r.engine.sessions| == |e.sessions| + 1
      && r.engine.peers == e.peers[op.peerId := |e.sessions|]
      && r.engine.sessions[|e.sessions|].id == op.peerId
      && r.engine.sessions[|e.sessions|].isOffering == op.WelcomePeer?
    ensures op.RemovePeer? && op.peerId in e.peers ==> r.engine.peers == e.peers - {op.peerId}
    ensures op.RemovePeer? && op.peerId !in e.peers ==> r == Outcome(e, [HandlerThrew])
    ensures (op.ProcessIceCandidate? || op.ProcessOffer? || op.ProcessAnswer?) ==>
      && r.engine.peers == e.peers
      && |r.engine.sessions| == |e.sessions|
      && (op.peerId !in e.peers ==> r == Outcome(e, []))
      && (forall h :: 0 <= h < |e.sessions| && (op.peerId !in e.peers || h != e.peers[op.peerId]) ==>
            r.engine.sessions[h] == e.sessions[h])
  {
    match op
    case WelcomePeer(id) => AddSession(e, id, true)
    case AddPeer(id) => AddSession(e, id, false)
    case RemovePeer(id) => RemoveSession(e, id)
    case ProcessIceCandidate(id, c) => Forward(e, id, Peer.AddIceCandidate(c))
    case ProcessOffer(id, offer) => Forward(e, id, Peer.ProcessOffer(offer))
    case ProcessAnswer(id, answer) => Forward(e, id, Peer.ProcessAnswer(answer))
  }

  /** The calls of one inbound message, in order. */
  function ApplyOps(e: Engine, ops: seq<Signaling.PeerOp>): (r: Outcome)
    requires HandlesValid(e)
    ensures HandlesValid(r.engine)
    decreases |ops|
  {
    if ops == [] then Outcome(e, [])
    else
      var first := ApplyOp(e, ops[0]);
      var rest := ApplyOps(first.engine, ops[1..]);
      Outcome(rest.engine, first.effects + rest.effects)
  }

  /** The socket's `onmessage`: decode, then make the calls the client chose. */
  function OnInbound(e: Engine, msg: Json): (r: Outcome)
    requires HandlesValid(e)
    ensures Signaling.OnMessage(msg) == Signaling.Threw ==> r == Outcome(e, [HandlerThrew])
    ensures Signaling.OnMessage(msg) == Signaling.NotModelled ==> r == Outcome(e, [])
    ensures Signaling.OnMessage(msg).Calls? ==> r == ApplyOps(e, Signaling.OnMessage(msg).ops)
  {
    match Signaling.OnMessage(msg)
    case Calls(ops) => ApplyOps(e, ops)
    case Threw => Outcome(e, [HandlerThrew])
    case NotModelled => Outcome(e, [])
  }

  /** An environment event reaching session `h`, tracked or not. */
  function OnSessionEvent(e: Engine, h: nat, ev: Peer.Event): (r: Outcome)
    requires h < |e.sessions|
    ensures r == Deliver(e, h, Peer.OnEvent(e.sessions[h], ev))
    ensures r.engine.peers == e.peers
    ensures r.engine.sessions == e.sessions[h := Peer.OnEvent(e.sessions[h], ev).peer]
    ensures Peer.OnEvent(e.sessions[h], ev).notify.None? ==> r.engine.readyPeerCount == e.readyPeerCount
  {
    Deliver(e, h, Peer.OnEvent(e.sessions[h], ev))
  }

  /** Everything that can happen to the engine apart from `send`. */
  datatype Command =
    | InitCmd(server: string, config: Option<Json>)
    | StartCmd
    | StopCmd
    | Inbound(msg: Json)
    | SessionEvent(h: nat, ev: Peer.Event)

  function Step(e: Engine, c: Command): (r: Outcome)
    requires HandlesValid(e)
    ensures HandlesValid(r.engine)
  {
    match c
    case InitCmd(server, config) => Outcome(Init(e, server, config), [])
    case StartCmd => Start(e)
    case StopCmd => Stop(e)
    case Inbound(msg) => OnInbound(e, msg)
    case SessionEvent(h, ev) => if h < |e.sessions| then OnSessionEvent(e, h, ev) else Outcome(e, [])
  }

  function Run(e: Engine, cmds: seq<Command>): (r: Outcome)
    requires HandlesValid(e)
    ensures HandlesValid(r.engine)
    decreases |cmds|
  {
    if cmds == [] then Outcome(e, [])
    else
      var first := Step(e, cmds[0]);
      var rest := Run(first.engine, cmds[1..]);
      Outcome(rest.engine, first.effects + rest.effects)
  }

  /** The overall-ready callbacks among some effects, in order. */
  function ReadyChanges(effects: seq<Effect>): seq<bool>
    decreases |effects|
  {
    if effects == [] then []
    else (if effects[0].ReadyChange? then [effects[0].isReady] else []) + ReadyChanges(effects[1..])
  }

  /** `send`: calls `sendMsg` on the tracked sessions one after another, in an
      order the model leaves open. A session with an open channel gets the
      text and one without a channel is skipped; the first session whose
      channel exists but is not open throws, which ends the loop, so the
      sessions after it get nothing. Nothing in the engine changes. */
  method Send(e: Engine, text: string) returns (r: Outcome, visited: seq<string>)
    requires HandlesValid(e) && Injective(e)
    ensures r.engine == e
    ensures forall i :: 0 <= i < |visited| ==> visited[i] in e.peers
    ensures forall i, j :: 0 <= i < j < |visited| ==> visited[i] != visited[j]
    ensures forall i :: 0 <= i < |visited| - 1 ==> !Blocks(e, visited[i])
    ensures (forall id :: id in e.peers ==> id in visited) || (visited != [] && Blocks(e, visited[|visited| - 1]))
    ensures HandlerThrew in r.effects <==> visited != [] && Blocks(e, visited[|visited| - 1])
    ensures (forall id :: id in e.peers ==> !Blocks(e, id)) ==>
      (forall id :: id in e.peers ==> id in visited) && HandlerThrew !in r.effects
    ensures forall id :: id in e.peers ==>
      (Rtc(e.peers[id], Peer.ChannelSend(text)) in r.effects <==> id in visited && Peer.ChannelOpen(e.sessions[e.peers[id]]))
    ensures forall i :: 0 <= i < |r.effects| ==>
      || (r.effects[i] == HandlerThrew && i == |r.effects| - 1)
      || (r.effects[i].Rtc? && r.effects[i].op == Peer.ChannelSend(text) && r.effects[i].session in e.peers.Values)
    ensures forall i, j :: 0 <= i < j < |r.effects| ==> r.effects[i] != r.effects[j]
  {
    var remaining := e.peers.Keys;
    var sends: seq<Effect> := [];
    ghost var owners: seq<string> := [];
    var threw := false;
    visited := [];
    while remaining != {} && !threw
      invariant remaining <= e.peers.Keys
      invariant forall id :: id in visited <==> id in e.peers && id !in remaining
      invariant forall i, j :: 0 <= i < j < |visited| ==> visited[i] != visited[j]
      invariant forall i :: 0 <= i < |visited| && (i < |visited| - 1 || !threw) ==> !Blocks(e, visited[i])
      invariant threw ==> visited != [] && Blocks(e, visited[|visited| - 1])
      invariant |owners| == |sends|
      invariant forall i :: 0 <= i < |sends| ==>
        && owners[i] in visited
        && sends[i] == Rtc(e.peers[owners[i]], Peer.ChannelSend(text))
      invariant forall i, j :: 0 <= i < j < |owners| ==> owners[i] != owners[j]
      invariant forall id :: id in visited ==> (id in owners <==> Peer.ChannelOpen(e.sessions[e.peers[id]]))
      decreases remaining
    {
      var id :| id in remaining;
      var lifted := SendTo(e, id, text);
      visited := visited + [id];
      remaining := remaining - {id};
      if lifted == [HandlerThrew] {
        threw := true;
      } else {
        if lifted != [] {
          owners := owners + [id];
        }
        sends := sends + lifted;
      }
    }
    r := Outcome(e, sends + (if threw then [HandlerThrew] else []));
    SendEffects(e, text, sends, owners, visited, threw);
  }

  /** The session tracked under `id` has a data channel that is not open, so
      `sendMsg` on it throws. */
  predicate Blocks(e: Engine, id: string)
    requires HandlesValid(e) && id in e.peers
  {
    var p := e.sessions[e.peers[id]];
    p.hasChannel && !Peer.ChannelOpen(p)
  }

  /** `sendMsg` on the session tracked under `id`, as engine effects. */
  function SendTo(e: Engine, id: string, text: string): (r: seq<Effect>)
    requires HandlesValid(e) && id in e.peers
    ensures Peer.ChannelOpen(e.sessions[e.peers[id]]) ==> r == [Rtc(e.peers[id], Peer.ChannelSend(text))]
    ensures Blocks(e, id) ==> r == [HandlerThrew]
    ensures !e.sessions[e.peers[id]].hasChannel ==> r == []
  {
    LiftAll(e, e.peers[id], Peer.Send(e.sessions[e.peers[id]], text).out)
  }

  /** The effects of `send`: one text per visited session whose channel is
      open, each to a different session, and a throw at the end exactly when
      the loop was cut short. */
  lemma SendEffects(e: Engine, text: string, sends: seq<Effect>, owners: seq<string>, visited: seq<string>, threw: bool)
    requires HandlesValid(e) && Injective(e)
    requires |owners| == |sends|
    requires forall i :: 0 <= i < |sends| ==>
      owners[i] in e.peers && sends[i] == Rtc(e.peers[owners[i]], Peer.ChannelSend(text))
    requires forall i, j :: 0 <= i < j < |owners| ==> owners[i] != owners[j]
    requires forall id :: id in e.peers ==> (id in owners <==> id in visited && Peer.ChannelOpen(e.sessions[e.peers[id]]))
    ensures var effects := sends + (if threw then [HandlerThrew] else []);
      && (HandlerThrew in effects <==> threw)
      && (forall id :: id in e.peers ==>
            (Rtc(e.peers[id], Peer.ChannelSend(text)) in effects <==> id in visited && Peer.ChannelOpen(e.sessions[e.peers[id]])))
      && (forall i :: 0 <= i < |effects| ==>
            || (effects[i] == HandlerThrew && i == |effects| - 1)
            || (effects[i].Rtc? && effects[i].op == Peer.ChannelSend(text) && effects[i].session in e.peers.Values))
      && (forall i, j :: 0 <= i < j < |effects| ==> effects[i] != effects[j])
  {
    var effects := sends + (if threw then [HandlerThrew] else []);
    SentExactlyToOpenChannels(e, text, sends, owners, visited);
    assert forall i :: 0 <= i < |sends| ==> effects[i] == sends[i];
    forall i, j | 0 <= i < j < |sends|
      ensures sends[i] != sends[j]
    {
      assert owners[i] != owners[j];
    }
    if threw {
      assert effects[|sends|] == HandlerThrew;
    }
  }

  /** When the sends were produced one per owner, and the owners are exactly
      the visited ids whose session's channel is open, a session gets the
      text iff it was visited with its channel open. */
  lemma SentExactlyToOpenChannels(e: Engine, text: string, sends: seq<Effect>, owners: seq<string>, visited: seq<string>)
    requires HandlesValid(e)
    requires |owners| == |sends|
    requires forall i :: 0 <= i < |sends| ==>
      owners[i] in e.peers && sends[i] == Rtc(e.peers[owners[i]], Peer.ChannelSend(text))
    requires forall id :: id in e.peers ==> (id in owners <==> id in visited && Peer.ChannelOpen(e.sessions[e.peers[id]]))
    requires Injective(e)
    ensures forall id :: id in e.peers ==>
      (Rtc(e.peers[id], Peer.ChannelSend(text)) in sends <==> id in visited && Peer.ChannelOpen(e.sessions[e.peers[id]]))
  {
    forall id | id in e.peers
      ensures Rtc(e.peers[id], Peer.ChannelSend(text)) in sends <==> id in visited && Peer.ChannelOpen(e.sessions[e.peers[id]])
    {
      if Rtc(e.peers[id], Peer.ChannelSend(text)) in sends {
        var i :| 0 <= i < |sends| && sends[i] == Rtc(e.peers[id], Peer.ChannelSend(text));
        assert owners[i] == id;
      }
      if id in visited && Peer.ChannelOpen(e.sessions[e.peers[id]]) {
        var i :| 0 <= i < |owners| && owners[i] == id;
        assert sends[i] == Rtc(e.peers[id], Peer.ChannelSend(text));
      }
    }
  }
}

=== FILE: engine_lemmas.dfy ===
/** Properties of the session manager across calls (messaging/src/engine.ts). */
module EngineLemmas {
  import opened Values
  import Peer
  import PeerLemmas
  import Signaling
  import opened Engine

  lemma {:induction false} ReadyChangesAppend(a: seq<Effect>, b: seq<Effect>)
    ensures ReadyChanges(a + b) == ReadyChanges(a) + ReadyChanges(b)
    decreases |a|
  {
    if a == [] {
      assert a + b == b;
    } else {
      var head := if a[0].ReadyChange? then [a[0].isReady] else [];
      assert (a + b)[0] == a[0];
      assert (a + b)[1..] == a[1..] + b;
      ReadyChangesAppend(a[1..], b);
      assert ReadyChanges(a + b) == head + ReadyChanges(a[1..] + b);
      assert ReadyChanges(a) == head + ReadyChanges(a[1..]);
    }
  }

  lemma {:induction false} NoReadyChanges(effects: seq<Effect>)
    requires forall i :: 0 <= i < |effects| ==> !effects[i].ReadyChange?
    ensures ReadyChanges(effects) == []
    decreases |effects|
  {
    if effects != [] {
      NoReadyChanges(effects[1..]);
    }
  }

  /** The overall-ready callbacks raised by an outcome are edge-only, starting
      from the count before it, and the last of them reports the count after it. */
  predicate Tracks(e: Engine, o: Outcome) {
    && Alternates(e.readyPeerCount > 0, ReadyChanges(o.effects))
    && LastOr(e.readyPeerCount > 0, ReadyChanges(o.effects)) == (o.engine.readyPeerCount > 0)
  }

  /** Two outcomes in a row track when each does. */
  lemma TracksCompose(e: Engine, first: Outcome, rest: Outcome)
    requires Tracks(e, first) && Tracks(first.engine, rest)
    ensures Tracks(e, Outcome(rest.engine, first.effects + rest.effects))
  {
    ReadyChangesAppend(first.effects, rest.effects);
    AlternatesAppend(e.readyPeerCount > 0, ReadyChanges(first.effects), ReadyChanges(rest.effects));
  }

  /** The readiness closure fires exactly when the count crosses zero, with the new side. */
  lemma DeliverTracks(e: Engine, h: nat, st: Peer.Step)
    requires h < |e.sessions| && e.readyPeerCount >= 0
    ensures Tracks(e, Deliver(e, h, st))
    ensures Deliver(e, h, st).engine.readyPeerCount >= 0
  {
    var e1 := e.(sessions := e.sessions[h := st.peer]);
    var effects := LiftAll(e1, h, st.out);
    NoReadyChanges(effects);
    if st.notify.Some? {
      var t := CountReadiness(e1.readyPeerCount, st.notify.value);
      var tail := if t.fired.Some? then [ReadyChange(t.fired.value)] else [];
      ReadyChangesAppend(effects, tail);
      assert ReadyChanges(tail) == (if t.fired.Some? then [t.fired.value] else []);
    }
  }

  lemma AddSessionTracks(e: Engine, id: string, isOffering: bool)
    requires e.readyPeerCount >= 0
    ensures Tracks(e, AddSession(e, id, isOffering))
  {
    NoReadyChanges(AddSession(e, id, isOffering).effects);
  }

  lemma ApplyOpTracks(e: Engine, op: Signaling.PeerOp)
    requires HandlesValid(e) && e.readyPeerCount >= 0
    ensures Tracks(e, ApplyOp(e, op)) && ApplyOp(e, op).engine.readyPeerCount >= 0
  {
    match op
    case WelcomePeer(id) => AddSessionTracks(e, id, true);
    case AddPeer(id) => AddSessionTracks(e, id, false);
    case RemovePeer(id) =>
      if id in e.peers {
        DeliverTracks(e, e.peers[id], Peer.Teardown(e.sessions[e.peers[id]]));
      }
    case ProcessIceCandidate(id, c) =>
      if id in e.peers {
        DeliverTracks(e, e.peers[id], Peer.Apply(e.sessions[e.peers[id]], Peer.AddIceCandidate(c)));
      }
    case ProcessOffer(id, offer) =>
      if id in e.peers {
        DeliverTracks(e, e.peers[id], Peer.Apply(e.sessions[e.peers[id]], Peer.ProcessOffer(offer)));
      }
    case ProcessAnswer(id, answer) =>
      if id in e.peers {
        DeliverTracks(e, e.peers[id], Peer.Apply(e.sessions[e.peers[id]], Peer.ProcessAnswer(answer)));
      }
  }

  lemma {:induction false} ApplyOpsTracks(e: Engine, ops: seq<Signaling.PeerOp>)
    requires HandlesValid(e) && e.readyPeerCount >= 0
    ensures Tracks(e, ApplyOps(e, ops)) && ApplyOps(e, ops).engine.readyPeerCount >= 0
    decreases |ops|
  {
    if ops != [] {
      var first := ApplyOp(e, ops[0]);
      ApplyOpTracks(e, ops[0]);
      ApplyOpsTracks(first.engine, ops[1..]);
      TracksCompose(e, first, ApplyOps(first.engine, ops[1..]));
    }
  }

  lemma StepTracks(e: Engine, c: Command)
    requires HandlesValid(e) && e.readyPeerCount >= 0
    ensures Tracks(e, Step(e, c)) && Step(e, c).engine.readyPeerCount >= 0
  {
    match c
    case InitCmd(_, _) =>
    case StartCmd =>
    case StopCmd =>
    case Inbound(msg) =>
      var d := Signaling.OnMessage(msg);
      if d.Calls? {
        ApplyOpsTracks(e, d.ops);
      }
    case SessionEvent(h, ev) =>
      if h < |e.sessions| {
        DeliverTracks(e, h, Peer.OnEvent(e.sessions[h], ev));
      }
  }

  /** The overall-ready callback is edge-triggered over any run: it alternates
      between `true` and `false`, the first call differs from the starting
      side of zero, the last one reports `readyPeerCount > 0` at the end, and
      the count never goes negative. */
  lemma {:induction false} OverallReadyIsEdgeTriggered(e: Engine, cmds: seq<Command>)
    requires HandlesValid(e) && e.readyPeerCount >= 0
    ensures Alternates(e.readyPeerCount > 0, ReadyChanges(Run(e, cmds).effects))
    ensures LastOr(e.readyPeerCount > 0, ReadyChanges(Run(e, cmds).effects)) == (Run(e, cmds).engine.readyPeerCount > 0)
    ensures Run(e, cmds).engine.readyPeerCount >= 0
    decreases |cmds|
  {
    if cmds != [] {
      var first := Step(e, cmds[0]);
      StepTracks(e, cmds[0]);
      OverallReadyIsEdgeTriggered(first.engine, cmds[1..]);
      TracksCompose(e, first, Run(first.engine, cmds[1..]));
    }
  }

  // ---------------------------------------------------------------------------
  // The count equals the number of ready sessions.

  lemma ReadySetUpdate(s: seq<Peer.Peer>, h: nat, p: Peer.Peer)
    requires h < |s|
    ensures p.ready ==> ReadySet(s[h := p]) == ReadySet(s) + {h}
    ensures !p.ready ==> ReadySet(s[h := p]) == ReadySet(s) - {h}
  {
  }

  lemma ReadySetAppend(s: seq<Peer.Peer>, p: Peer.Peer)
    requires !p.ready
    ensures ReadySet(s + [p]) == ReadySet(s)
  {
    assert forall h :: 0 <= h < |s| ==> (s + [p])[h] == s[h];
  }

  /** Installing a handler's result keeps the invariant, provided the handler
      notified only on an edge and kept the session's id and coherence; in
      particular a decrement only happens when the count is positive, so the
      clamp at zero never acts. */
  lemma DeliverKeepsInv(e: Engine, h: nat, st: Peer.Step)
    requires Inv(e) && h < |e.sessions|
    requires Peer.EdgeOnly(e.sessions[h], st) && st.peer.id == e.sessions[h].id && Peer.Coherent(st.peer)
    ensures Inv(Deliver(e, h, st).engine)
    ensures st.notify == Some(false) ==> e.readyPeerCount > 0
  {
    ReadySetUpdate(e.sessions, h, st.peer);
    var s := e.sessions;
    var s' := s[h := st.peer];
    if st.notify == Some(false) {
      assert h in ReadySet(s);
    }
    if st.notify == Some(true) {
      assert h !in ReadySet(s);
    }
    if st.notify == None {
      assert ReadySet(s') == ReadySet(s);
    }
  }

  lemma AddSessionKeepsInv(e: Engine, id: string, isOffering: bool)
    requires Inv(e)
    ensures Inv(AddSession(e, id, isOffering).engine)
  {
    var st := Peer.Initialize(Peer.New(id, isOffering), e.rtcConfig);
    ReadySetAppend(e.sessions, st.peer);
    var r := AddSession(e, id, isOffering).engine;
    assert r.sessions == e.sessions + [st.peer];
    forall h | 0 <= h < |r.sessions|
      ensures Peer.Coherent(r.sessions[h])
    {
      if h < |e.sessions| {
        assert r.sessions[h] == e.sessions[h];
      }
    }
  }

  lemma RemoveSessionKeepsInv(e: Engine, id: string)
    requires Inv(e)
    ensures Inv(RemoveSession(e, id).engine)
  {
    if id in e.peers {
      DeliverKeepsInv(e, e.peers[id], Peer.Teardown(e.sessions[e.peers[id]]));
    }
  }

  lemma ForwardKeepsInv(e: Engine, id: string, input: Peer.Input)
    requires Inv(e)
    ensures Inv(Forward(e, id, input).engine)
  {
    if id in e.peers {
      DeliverKeepsInv(e, e.peers[id], Peer.Apply(e.sessions[e.peers[id]], input));
    }
  }

  lemma ApplyOpKeepsInv(e: Engine, op: Signaling.PeerOp)
    requires Inv(e)
    ensures Inv(ApplyOp(e, op).engine)
  {
    match op
    case WelcomePeer(id) => AddSessionKeepsInv(e, id, true);
    case AddPeer(id) => AddSessionKeepsInv(e, id, false);
    case RemovePeer(id) => RemoveSessionKeepsInv(e, id);
    case ProcessIceCandidate(id, c) => ForwardKeepsInv(e, id, Peer.AddIceCandidate(c));
    case ProcessOffer(id, offer) => ForwardKeepsInv(e, id, Peer.ProcessOffer(offer));
    case ProcessAnswer(id, answer) => ForwardKeepsInv(e, id, Peer.ProcessAnswer(answer));
  }

  lemma {:induction false} ApplyOpsKeepsInv(e: Engine, ops: seq<Signaling.PeerOp>)
    requires Inv(e)
    ensures Inv(ApplyOps(e, ops).engine)
    decreases |ops|
  {
    if ops != [] {
      ApplyOpKeepsInv(e, ops[0]);
      ApplyOpsKeepsInv(ApplyOp(e, ops[0]).engine, ops[1..]);
    }
  }

  lemma StepKeepsInv(e: Engine, c: Command)
    requires Inv(e)
    ensures Inv(Step(e, c).engine)
  {
    match c
    case InitCmd(_, _) =>
    case StartCmd =>
    case StopCmd =>
    case Inbound(msg) =>
      var d := Signaling.OnMessage(msg);
      if d.Calls? {
        ApplyOpsKeepsInv(e, d.ops);
      }
    case SessionEvent(h, ev) =>
      if h < |e.sessions| {
        assert Peer.Apply(e.sessions[h], Peer.Env(ev)) == Peer.OnEvent(e.sessions[h], ev);
        DeliverKeepsInv(e, h, Peer.OnEvent(e.sessions[h], ev));
      }
  }

  /** From the initial engine, every run keeps `readyPeerCount` equal to the
      number of sessions (tracked or not) whose `ready` flag is set. */
  lemma {:induction false} CountIsReadySessions(e: Engine, cmds: seq<Command>)
    requires Inv(e)
    ensures Inv(Run(e, cmds).engine)
    ensures Run(e, cmds).engine.readyPeerCount == |ReadySet(Run(e, cmds).engine.sessions)|
    decreases |cmds|
  {
    if cmds != [] {
      StepKeepsInv(e, cmds[0]);
      CountIsReadySessions(Step(e, cmds[0]).engine, cmds[1..]);
    }
  }

  lemma InitialInv()
    ensures Inv(Initial)
  {
    assert ReadySet(Initial.sessions) == {};
  }

  // ---------------------------------------------------------------------------
  // The count against the tracked peers.

  /** Sessions that are no longer in the map can never become ready again. */
  predicate OrphansIdle(e: Engine) {
    forall h :: 0 <= h < |e.sessions| && h !in e.peers.Values ==> Peer.Idle(e.sessions[h])
  }

  /** The ids whose session is ready. */
  function TrackedReady(e: Engine): set<string>
    requires HandlesValid(e)
  {
    set id | id in e.peers && e.sessions[e.peers[id]].ready
  }

  lemma {:induction false} InjectiveImageCard(m: map<string, nat>, ks: set<string>)
    requires ks <= m.Keys
    requires forall a, b :: a in m && b in m && a != b ==> m[a] != m[b]
    ensures |set k | k in ks :: m[k]| == |ks|
    decreases ks
  {
    if ks != {} {
      var k :| k in ks;
      InjectiveImageCard(m, ks - {k});
      assert (set x | x in ks :: m[x]) == (set x | x in ks - {k} :: m[x]) + {m[k]};
      assert m[k] !in (set x | x in ks - {k} :: m[x]);
    }
  }

  /** When no orphaned session is ready, `readyPeerCount` is the number of
      tracked peers whose session is ready. */
  lemma CountMatchesTrackedReady(e: Engine)
    requires Inv(e) && OrphansIdle(e)
    ensures e.readyPeerCount == |TrackedReady(e)|
  {
    var tracked := TrackedReady(e);
    var image := set id | id in tracked :: e.peers[id];
    forall h | h in ReadySet(e.sessions)
      ensures h in image
    {
      assert h in e.peers.Values;
      var id :| id in e.peers && e.peers[id] == h;
      assert id in tracked;
    }
    assert ReadySet(e.sessions) == image;
    InjectiveImageCard(e.peers, tracked);
  }

  /** Adding a peer keeps orphans idle as long as it does not overwrite a
      session that could still become ready. */
  lemma AddSessionKeepsOrphansIdle(e: Engine, id: string, isOffering: bool)
    requires Inv(e) && OrphansIdle(e)
    requires id in e.peers ==> Peer.Idle(e.sessions[e.peers[id]])
    ensures OrphansIdle(AddSession(e, id, isOffering).engine)
  {
    var r := AddSession(e, id, isOffering).engine;
    assert r.peers[id] == |e.sessions|;
    forall h | 0 <= h < |r.sessions| && h !in r.peers.Values
      ensures Peer.Idle(r.sessions[h])
    {
      assert h < |e.sessions|;
      assert r.sessions[h] == e.sessions[h];
      assert h !in e.peers.Values || (id in e.peers && e.peers[id] == h) by {
        forall other | other in e.peers && other != id
          ensures e.peers[other] != h
        {
          assert r.peers[other] == e.peers[other];
        }
      }
    }
  }

  /** Removing a peer destroys its session before orphaning it. */
  lemma RemoveSessionKeepsOrphansIdle(e: Engine, id: string)
    requires Inv(e) && OrphansIdle(e)
    ensures OrphansIdle(RemoveSession(e, id).engine)
  {
    if id in e.peers {
      var h0 := e.peers[id];
      var r := RemoveSession(e, id).engine;
      assert Peer.Idle(r.sessions[h0]);
      forall h | 0 <= h < |r.sessions| && h !in r.peers.Values
        ensures Peer.Idle(r.sessions[h])
      {
        if h != h0 {
          assert r.sessions[h] == e.sessions[h];
          assert h !in e.peers.Values by {
            forall other | other in e.peers
              ensures e.peers[other] != h
            {
              if other != id {
                assert r.peers[other] == e.peers[other];
              }
            }
          }
        }
      }
    }
  }

  /** An environment event the browser can deliver keeps orphans idle. */
  lemma SessionEventKeepsOrphansIdle(e: Engine, h: nat, ev: Peer.Event)
    requires Inv(e) && OrphansIdle(e) && h < |e.sessions|
    requires Peer.EnvSound(e.sessions[h], ev)
    ensures OrphansIdle(OnSessionEvent(e, h, ev).engine)
  {
    if h !in e.peers.Values {
      PeerLemmas.IdleStaysIdle(e.sessions[h], ev);
    }
  }

  /** Forwarding reaches a tracked session, so every untracked one is left as it was. */
  lemma ForwardKeepsOrphansIdle(e: Engine, id: string, input: Peer.Input)
    requires Inv(e) && OrphansIdle(e)
    ensures OrphansIdle(Forward(e, id, input).engine)
  {
    if id in e.peers {
      var h0 := e.peers[id];
      var r := Forward(e, id, input).engine;
      assert r.peers == e.peers;
      forall h | 0 <= h < |r.sessions| && h !in r.peers.Values
        ensures Peer.Idle(r.sessions[h])
      {
        assert h != h0;
        assert r.sessions[h] == e.sessions[h];
      }
    }
  }

  /** An add does not overwrite the entry of a session that could still become ready. */
  predicate OpSafe(e: Engine, op: Signaling.PeerOp)
    requires HandlesValid(e)
  {
    (op.WelcomePeer? || op.AddPeer?) && op.peerId in e.peers ==> Peer.Idle(e.sessions[e.peers[op.peerId]])
  }

  /** Every call of a message is safe in the state it is made in. */
  predicate OpsSafe(e: Engine, ops: seq<Signaling.PeerOp>)
    requires HandlesValid(e)
    decreases |ops|
  {
    ops == [] || (OpSafe(e, ops[0]) && OpsSafe(ApplyOp(e, ops[0]).engine, ops[1..]))
  }

  /** A command is safe when the calls it makes are, and when the browser does
      not open the channel of a closed connection. */
  predicate StepSafe(e: Engine, c: Command)
    requires HandlesValid(e)
  {
    match c
    case Inbound(msg) => Signaling.OnMessage(msg).Calls? ==> OpsSafe(e, Signaling.OnMessage(msg).ops)
    case SessionEvent(h, ev) => h < |e.sessions| ==> Peer.EnvSound(e.sessions[h], ev)
    case _ => true
  }

  /** A run whose every command is safe in the state it reaches. */
  predicate RunSafe(e: Engine, cmds: seq<Command>)
    requires HandlesValid(e)
    decreases |cmds|
  {
    cmds == [] || (StepSafe(e, cmds[0]) && RunSafe(Step(e, cmds[0]).engine, cmds[1..]))
  }

  lemma ApplyOpKeepsOrphansIdle(e: Engine, op: Signaling.PeerOp)
    requires Inv(e) && OrphansIdle(e) && OpSafe(e, op)
    ensures OrphansIdle(ApplyOp(e, op).engine)
  {
    match op
    case WelcomePeer(id) => AddSessionKeepsOrphansIdle(e, id, true);
    case AddPeer(id) => AddSessionKeepsOrphansIdle(e, id, false);
    case RemovePeer(id) => RemoveSessionKeepsOrphansIdle(e, id);
    case ProcessIceCandidate(id, c) => ForwardKeepsOrphansIdle(e, id, Peer.AddIceCandidate(c));
    case ProcessOffer(id, offer) => ForwardKeepsOrphansIdle(e, id, Peer.ProcessOffer(offer));
    case ProcessAnswer(id, answer) => ForwardKeepsOrphansIdle(e, id, Peer.ProcessAnswer(answer));
  }

  lemma {:induction false} ApplyOpsKeepsOrphansIdle(e: Engine, ops: seq<Signaling.PeerOp>)
    requires Inv(e) && OrphansIdle(e) && OpsSafe(e, ops)
    ensures Inv(ApplyOps(e, ops).engine) && OrphansIdle(ApplyOps(e, ops).engine)
    decreases |ops|
  {
    ApplyOpsKeepsInv(e, ops);
    if ops != [] {
      ApplyOpKeepsInv(e, ops[0]);
      ApplyOpKeepsOrphansIdle(e, ops[0]);
      ApplyOpsKeepsOrphansIdle(ApplyOp(e, ops[0]).engine, ops[1..]);
    }
  }

  lemma StepKeepsOrphansIdle(e: Engine, c: Command)
    requires Inv(e) && OrphansIdle(e) && StepSafe(e, c)
    ensures OrphansIdle(Step(e, c).engine)
  {
    match c
    case InitCmd(_, _) =>
    case StartCmd =>
    case StopCmd =>
    case Inbound(msg) =>
      var d := Signaling.OnMessage(msg);
      if d.Calls? {
        ApplyOpsKeepsOrphansIdle(e, d.ops);
      }
    case SessionEvent(h, ev) =>
      if h < |e.sessions| {
        SessionEventKeepsOrphansIdle(e, h, ev);
      }
  }

  /** Along a safe run `readyPeerCount` stays equal to the number of tracked
      peers whose session is ready. */
  lemma {:induction false} CountTracksReadyPeers(e: Engine, cmds: seq<Command>)
    requires Inv(e) && OrphansIdle(e) && RunSafe(e, cmds)
    ensures Inv(Run(e, cmds).engine) && OrphansIdle(Run(e, cmds).engine)
    ensures Run(e, cmds).engine.readyPeerCount == |TrackedReady(Run(e, cmds).engine)|
    decreases |cmds|
  {
    if cmds != [] {
      StepKeepsInv(e, cmds[0]);
      StepKeepsOrphansIdle(e, cmds[0]);
      CountTracksReadyPeers(Step(e, cmds[0]).engine, cmds[1..]);
    } else {
      CountMatchesTrackedReady(e);
    }
  }

  /** From the engine's initial state, every safe run ends with
      `readyPeerCount` equal to the number of tracked ready peers. */
  lemma TrackedCountFromInitial(cmds: seq<Command>)
    requires RunSafe(Initial, cmds)
    ensures Run(Initial, cmds).engine.readyPeerCount == |TrackedReady(Run(Initial, cmds).engine)|
  {
    InitialInv();
    CountTracksReadyPeers(Initial, cmds);
  }

  /** Overwriting the entry of a ready peer breaks the match: one session
      is ready and counted, but no tracked peer is ready. */
  lemma OverwriteLeaksReadiness()
    ensures var e0 := Init(Initial, DefaultServer, Some(JObj(map[])));
      var e1 := AddSession(e0, "A", true).engine;
      var e2 := OnSessionEvent(e1, 0, Peer.ChannelOpened).engine;
      var e3 := AddSession(e2, "A", true).engine;
      && e3.readyPeerCount == 1
      && HandlesValid(e3)
      && TrackedReady(e3) == {}
  {
    var e0 := Init(Initial, DefaultServer, Some(JObj(map[])));
    var e1 := AddSession(e0, "A", true).engine;
    assert e1.sessions[0].hasChannel;
    var e2 := OnSessionEvent(e1, 0, Peer.ChannelOpened).engine;
    assert e2.readyPeerCount == 1;
    var e3 := AddSession(e2, "A", true).engine;
    assert e3.peers == map["A" := 1];
    assert !e3.sessions[1].ready;
  }

  // ---------------------------------------------------------------------------
  // Single operations.

  /** `init` records the server and configuration of the first call only. */
  lemma InitOnlyOnce(e: Engine, server: string, config: Option<Json>, server2: string, config2: Option<Json>)
    requires !e.initialized
    ensures Init(e, server, config).signalingServer == server
    ensures Init(e, server, config).rtcConfig == config
    ensures Init(Init(e, server, config), server2, config2) == Init(e, server, config)
  {
  }

  /** The first call of a welcome list is `_addPeer` in the offering role. */
  lemma WelcomeHead(e: Engine, ids: seq<string>, ops: seq<Signaling.PeerOp>)
    requires HandlesValid(e)
    requires |ops| == |ids| > 0 && forall i :: 0 <= i < |ops| ==> ops[i] == Signaling.WelcomePeer(ids[i])
    ensures var first := AddSession(e, ids[0], true);
      && HandlesValid(first.engine)
      && ApplyOps(e, ops) == Outcome(ApplyOps(first.engine, ops[1..]).engine,
                                     first.effects + ApplyOps(first.engine, ops[1..]).effects)
  {
    assert ApplyOp(e, ops[0]) == AddSession(e, ids[0], true);
  }

  /** `_addPeer` in the offering role for each id in turn. */
  function AddOfferers(e: Engine, ids: seq<string>): Engine
    decreases |ids|
  {
    if ids == [] then e else AddOfferers(AddSession(e, ids[0], true).engine, ids[1..])
  }

  /** A welcome's calls are `_addPeer` for each listed id in turn. */
  lemma {:induction false} WelcomeIsAddOfferers(e: Engine, ids: seq<string>, ops: seq<Signaling.PeerOp>)
    requires HandlesValid(e)
    requires |ops| == |ids| && forall i :: 0 <= i < |ops| ==> ops[i] == Signaling.WelcomePeer(ids[i])
    ensures ApplyOps(e, ops).engine == AddOfferers(e, ids)
    decreases |ops|
  {
    if ops != [] {
      WelcomeHead(e, ids, ops);
      WelcomeIsAddOfferers(AddSession(e, ids[0], true).engine, ids[1..], ops[1..]);
    }
  }

  /** Adding offerers keeps the earlier sessions and the count, and appends one
      session per id. */
  lemma {:induction false} AddOfferersKeepsPrefix(e: Engine, ids: seq<string>)
    ensures var r := AddOfferers(e, ids);
      && |r.sessions| == |e.sessions| + |ids|
      && r.sessions[..|e.sessions|] == e.sessions
      && r.readyPeerCount == e.readyPeerCount
    decreases |ids|
  {
    if ids == [] {
      assert e.sessions[..|e.sessions|] == e.sessions;
    } else {
      var e1 := AddSession(e, ids[0], true).engine;
      AddOfferersKeepsPrefix(e1, ids[1..]);
      var r := AddOfferers(e1, ids[1..]);
      assert r.sessions[..|e.sessions|] == e1.sessions[..|e.sessions|];
    }
  }

  /** The appended sessions carry the ids, in order. */
  lemma {:induction false} AddOfferersIds(e: Engine, ids: seq<string>)
    ensures var r := AddOfferers(e, ids);
      |r.sessions| == |e.sessions| + |ids| &&
      forall i :: 0 <= i < |ids| ==> r.sessions[|e.sessions| + i].id == ids[i]
    decreases |ids|
  {
    AddOfferersKeepsPrefix(e, ids);
    if ids != [] {
      var e1 := AddSession(e, ids[0], true).engine;
      AddOfferersIds(e1, ids[1..]);
      AddOfferersKeepsPrefix(e1, ids[1..]);
      var r := AddOfferers(e1, ids[1..]);
      assert r.sessions[|e.sessions|] == r.sessions[..|e1.sessions|][|e.sessions|];
      forall i | 0 <= i < |ids|
        ensures r.sessions[|e.sessions| + i].id == ids[i]
      {
        if i > 0 {
          assert ids[1..][i - 1] == ids[i];
        }
      }
    }
  }

  /** The appended sessions are all offerers. */
  lemma {:induction false} AddOfferersOffer(e: Engine, ids: seq<string>)
    ensures var r := AddOfferers(e, ids);
      |r.sessions| == |e.sessions| + |ids| &&
      forall i :: |e.sessions| <= i < |r.sessions| ==> r.sessions[i].isOffering
    decreases |ids|
  {
    AddOfferersKeepsPrefix(e, ids);
    if ids != [] {
      var e1 := AddSession(e, ids[0], true).engine;
      AddOfferersOffer(e1, ids[1..]);
      AddOfferersKeepsPrefix(e1, ids[1..]);
      var r := AddOfferers(e1, ids[1..]);
      assert r.sessions[|e.sessions|] == r.sessions[..|e1.sessions|][|e.sessions|];
    }
  }

  lemma AddOfferersAppends(e: Engine, ids: seq<string>)
    ensures var r := AddOfferers(e, ids);
      && |r.sessions| == |e.sessions| + |ids|
      && r.sessions[..|e.sessions|] == e.sessions
      && (forall i :: 0 <= i < |ids| ==> r.sessions[|e.sessions| + i].id == ids[i])
      && (forall i :: |e.sessions| <= i < |r.sessions| ==> r.sessions[i].isOffering)
      && r.readyPeerCount == e.readyPeerCount
  {
    AddOfferersKeepsPrefix(e, ids);
    AddOfferersIds(e, ids);
    AddOfferersOffer(e, ids);
  }

  lemma {:induction false} AddOfferersTracks(e: Engine, ids: seq<string>)
    ensures var r := AddOfferers(e, ids);
      && (forall id :: id in r.peers <==> id in e.peers || id in ids)
      && (forall id :: id in e.peers && id !in ids ==> r.peers[id] == e.peers[id])
    decreases |ids|
  {
    if ids != [] {
      var e1 := AddSession(e, ids[0], true).engine;
      AddOfferersTracks(e1, ids[1..]);
      var r := AddOfferers(e1, ids[1..]);
      forall id
        ensures id in r.peers <==> id in e.peers || id in ids
      {
        assert id in ids <==> id == ids[0] || id in ids[1..];
      }
      forall id | id in e.peers && id !in ids
        ensures r.peers[id] == e.peers[id]
      {
        assert id !in ids[1..];
      }
    }
  }

  /** A welcome listing `ids` appends one offering session per id, in list
      order, keeps every earlier session and leaves the ready count unchanged. */
  lemma WelcomeAppendsOfferers(e: Engine, ids: seq<string>, ops: seq<Signaling.PeerOp>)
    requires HandlesValid(e)
    requires |ops| == |ids| && forall i :: 0 <= i < |ops| ==> ops[i] == Signaling.WelcomePeer(ids[i])
    ensures var r := ApplyOps(e, ops).engine;
      && |r.sessions| == |e.sessions| + |ids|
      && r.sessions[..|e.sessions|] == e.sessions
      && (forall i :: 0 <= i < |ids| ==> r.sessions[|e.sessions| + i].id == ids[i])
      && (forall i :: |e.sessions| <= i < |r.sessions| ==> r.sessions[i].isOffering)
      && r.readyPeerCount == e.readyPeerCount
  {
    WelcomeIsAddOfferers(e, ids, ops);
    AddOfferersAppends(e, ids);
  }

  /** After a welcome listing `ids`, exactly the ids tracked before and the
      listed ones are tracked, and an id not listed keeps its session. */
  lemma WelcomeTracksListedIds(e: Engine, ids: seq<string>, ops: seq<Signaling.PeerOp>)
    requires HandlesValid(e)
    requires |ops| == |ids| && forall i :: 0 <= i < |ops| ==> ops[i] == Signaling.WelcomePeer(ids[i])
    ensures var r := ApplyOps(e, ops).engine;
      && (forall id :: id in r.peers <==> id in e.peers || id in ids)
      && (forall id :: id in e.peers && id !in ids ==> r.peers[id] == e.peers[id])
  {
    WelcomeIsAddOfferers(e, ids, ops);
    AddOfferersTracks(e, ids);
  }

  /** An offering session added while a configuration is recorded starts an
      offer at once, on the new session. */
  lemma AddedOffererStartsOffer(e: Engine, id: string)
    requires Present(e.rtcConfig)
    ensures var r := AddSession(e, id, true);
      && r.effects == [Rtc(|e.sessions|, Peer.CreateConn(e.rtcConfig.value)),
                       Rtc(|e.sessions|, Peer.CreateChannel("data")),
                       Rtc(|e.sessions|, Peer.CreateOffer)]
  {
    var st := Peer.Initialize(Peer.New(id, true), e.rtcConfig);
    assert st.out == [Peer.Prim(Peer.CreateConn(e.rtcConfig.value)), Peer.Prim(Peer.CreateChannel("data")), Peer.Prim(Peer.CreateOffer)];
  }

  /** A control message for an id that is not tracked changes nothing and
      does nothing. */
  lemma UnknownIdIsDropped(e: Engine, msg: Json)
    requires HandlesValid(e)
    requires Signaling.OnMessage(msg).Calls? && |Signaling.OnMessage(msg).ops| == 1
    requires var op := Signaling.OnMessage(msg).ops[0];
      (op.ProcessIceCandidate? || op.ProcessOffer? || op.ProcessAnswer?) && op.peerId !in e.peers
    ensures OnInbound(e, msg) == Outcome(e, [])
  {
    var ops := Signaling.OnMessage(msg).ops;
    assert ApplyOps(e, ops) == Outcome(ApplyOps(e, []).engine, ApplyOp(e, ops[0]).effects + ApplyOps(e, []).effects);
  }

  /** A removal for an id that is not tracked throws before changing anything. */
  lemma UnknownRemovalThrows(e: Engine, id: string)
    requires HandlesValid(e) && id !in e.peers
    ensures ApplyOps(e, [Signaling.RemovePeer(id)]) == Outcome(e, [HandlerThrew])
  {
    assert ApplyOps(e, [Signaling.RemovePeer(id)]) == Outcome(ApplyOps(e, []).engine, [HandlerThrew] + []);
  }
}

=== FILE: peer.dfy ===
/** One remote participant's session (`RtcPeer` in messaging/src/peer.ts).

    The browser's RTCPeerConnection and RTCDataChannel are an environment: the
    session asks it to do things (`Primitive`), and it answers later with an
    `Event` (a promise settling, a candidate gathered, the channel opening or
    closing). Every handler is a pure step that returns the new session, the
    calls it made in order, and the readiness notification it raised, which
    the source always raises last. */
module Peer {
  import opened Values

  /** What the session's `conn` field refers to. `Closed` is a connection on
      which `close()` was called: the field still refers to it. */
  datatype Conn = NoConn | Live | Closed

  datatype Peer = Peer(
    id: string,
    isOffering: bool,
    conn: Conn,
    hasChannel: bool,
    ready: bool,
    /** a `createOffer` promise whose continuation is still registered */
    offerPending: bool,
    /** `createAnswer` promises whose continuations are still registered */
    answersPending: nat)

  /** Calls into the connection-establishment primitives. */
  datatype Primitive =
    | CreateConn(config: Json)
    | CreateChannel(name: string)
    | CreateOffer
    | CreateAnswer
    | SetLocal(local: Json)
    | SetRemote(remote: Option<Json>)
    | AddCandidate(candidate: Json)
    | CloseConn
    | ChannelSend(text: string)

  /** Everything a handler does besides changing the session and notifying readiness. */
  datatype Out =
    | Prim(op: Primitive)
    | SignalIce(target: string, candidate: Json)
    | SignalOffer(target: string, sdp: Json)
    | SignalAnswer(target: string, sdp: Json)
    | Received(text: string)
    /** the call threw: `send` on a data channel that is not open */
    | Raised

  /** What the environment delivers to a session. */
  datatype Event =
    | IceGathered(candidate: Option<Json>)
    | OfferCreated(offer: Json)
    | OfferFailed
    | AnswerCreated(answer: Json)
    | AnswerFailed
    | ChannelArrived
    | ChannelOpened
    | ChannelClosed
    | ChannelMessage(text: string)

  /** A call from the session manager, or an event from the environment. */
  datatype Input =
    | Init(config: Option<Json>)
    | Destroy
    | AddIceCandidate(candidate: Option<Json>)
    | ProcessOffer(offer: Option<Json>)
    | ProcessAnswer(answer: Option<Json>)
    | SendMsg(text: string)
    | Env(ev: Event)

  datatype Step = Step(peer: Peer, out: seq<Out>, notify: Option<bool>)

  /** A handler notifies exactly when it flips `ready`, and with the new value. */
  predicate EdgeOnly(p: Peer, r: Step) {
    r.notify == (if p.ready == r.peer.ready then None else Some(r.peer.ready))
  }

  /** True when a handler relayed nothing through the signaling channel. */
  predicate SignalsNothing(out: seq<Out>) {
    forall i :: 0 <= i < |out| ==> !out[i].SignalIce? && !out[i].SignalOffer? && !out[i].SignalAnswer?
  }

  /** A session has a data channel only once it has had a connection. */
  predicate Coherent(p: Peer) {
    p.hasChannel ==> p.conn != NoConn
  }

  /** A session that can no longer become ready: not ready, and its connection
      closed or never created (in which case no channel can ever arrive). */
  predicate Idle(p: Peer) {
    !p.ready && (p.conn == Closed || (p.conn == NoConn && !p.hasChannel))
  }

  /** What the browser guarantees of the events it delivers: the channel of a
      closed connection does not open. */
  predicate EnvSound(p: Peer, ev: Event) {
    !(ev == ChannelOpened && p.conn == Closed)
  }

  /** The data channel is taken to be open. Its `onopen` sets `ready` and its
      `onclose` clears it, and `destroy` closes the connection (and with it the
      channel) while clearing it too, so with a channel present `ready` stands
      for the channel being open. The browser's own state can differ from it in
      two windows, between an event and the callback that follows it. */
  predicate ChannelOpen(p: Peer) {
    p.hasChannel && p.ready
  }

  /** A freshly constructed session: no connection, no channel, not ready. */
  function New(id: string, isOffering: bool): (p: Peer)
    ensures p.id == id && p.isOffering == isOffering
    ensures p.conn == NoConn && !p.hasChannel && !p.ready
    ensures !p.offerPending && p.answersPending == 0
  {
    Peer(id, isOffering, NoConn, false, false, false, 0)
  }

  /** `callOnStateChange`: the readiness flag deduplicates raw channel events. */
  function CallOnStateChange(p: Peer, isReady: bool): (r: Step)
    ensures r.peer == p.(ready := isReady)
    ensures r.out == []
    ensures r.notify.Some? <==> p.ready != isReady
    ensures EdgeOnly(p, r)
  {
    if isReady == p.ready then Step(p, [], None)
    else Step(p.(ready := isReady), [], Some(isReady))
  }

  /** `createOffer`: starts one offer when a connection exists. */
  function StartOffer(p: Peer): (r: Step)
    ensures p.conn == NoConn ==> r == Step(p, [], None)
    ensures p.conn != NoConn ==> r == Step(p.(offerPending := true), [Prim(CreateOffer)], None)
  {
    if p.conn == NoConn then Step(p, [], None)
    else Step(p.(offerPending := true), [Prim(CreateOffer)], None)
  }

  /** `init`: without a configuration nothing happens. Otherwise a connection is
      created; an offerer also opens the "data" channel and starts an offer,
      while an answerer only waits for the remote channel. */
  function Initialize(p: Peer, config: Option<Json>): (r: Step)
    ensures !Present(config) ==> r == Step(p, [], None)
    ensures Present(config) ==> r.peer.conn == Live && |r.out| >= 1 && r.out[0] == Prim(CreateConn(config.value))
    ensures Present(config) && p.isOffering ==>
      && r.peer.hasChannel && r.peer.offerPending
      && r.out == [Prim(CreateConn(config.value)), Prim(CreateChannel("data")), Prim(CreateOffer)]
    ensures Present(config) && !p.isOffering ==>
      r.peer == p.(conn := Live) && r.out == [Prim(CreateConn(config.value))]
    ensures SignalsNothing(r.out)
    ensures r.peer.ready == p.ready && r.notify == None
    ensures r.peer.id == p.id && r.peer.isOffering == p.isOffering
  {
    if !Present(config) then Step(p, [], None)
    else
      var connected := p.(conn := Live);
      if p.isOffering then
        var offer := StartOffer(connected.(hasChannel := true));
        Step(offer.peer, [Prim(CreateConn(config.value)), Prim(CreateChannel("data"))] + offer.out, None)
      else
        Step(connected, [Prim(CreateConn(config.value))], None)
  }

  /** `destroy`: closes any connection, then drops readiness. */
  function Teardown(p: Peer): (r: Step)
    ensures !r.peer.ready
    ensures EdgeOnly(p, r)
    ensures r.notify == (if p.ready then Some(false) else None)
    ensures r.peer == p.(ready := false, conn := if p.conn == NoConn then NoConn else Closed)
    ensures r.out == (if p.conn == NoConn then [] else [Prim(CloseConn)])
  {
    var closed := if p.conn == NoConn then p else p.(conn := Closed);
    var out := if p.conn == NoConn then [] else [Prim(CloseConn)];
    var changed := CallOnStateChange(closed, false);
    Step(changed.peer, out, changed.notify)
  }

  /** `addIceCandidate`: forwards a truthy candidate to an existing connection. */
  function AddRemoteCandidate(p: Peer, candidate: Option<Json>): (r: Step)
    ensures r.peer == p && r.notify == None
    ensures |r.out| <= 1
    ensures r.out != [] <==> Present(candidate) && p.conn != NoConn
    ensures r.out != [] ==> r.out == [Prim(AddCandidate(candidate.value))]
  {
    if !Present(candidate) || p.conn == NoConn then Step(p, [], None)
    else Step(p, [Prim(AddCandidate(candidate.value))], None)
  }

  /** `processOffer`: with a connection, applies the offer and starts one answer. */
  function AcceptOffer(p: Peer, offer: Option<Json>): (r: Step)
    ensures p.conn == NoConn ==> r == Step(p, [], None)
    ensures p.conn != NoConn ==>
      && r.peer == p.(answersPending := p.answersPending + 1)
      && r.out == [Prim(SetRemote(offer)), Prim(CreateAnswer)]
    ensures SignalsNothing(r.out) && r.notify == None
  {
    if p.conn == NoConn then Step(p, [], None)
    else Step(p.(answersPending := p.answersPending + 1), [Prim(SetRemote(offer)), Prim(CreateAnswer)], None)
  }

  /** `processAnswer`: applies the remote answer when a connection exists. */
  function AcceptAnswer(p: Peer, answer: Option<Json>): (r: Step)
    ensures r.peer == p && r.notify == None
    ensures r.out == (if p.conn == NoConn then [] else [Prim(SetRemote(answer))])
  {
    if p.conn == NoConn then Step(p, [], None)
    else Step(p, [Prim(SetRemote(answer))], None)
  }

  /** `sendMsg`: hands the text to the data channel when there is one. A
      channel that exists but whose `onopen` has not run, or whose `onclose`
      has run, refuses it and the call throws. */
  function Send(p: Peer, text: string): (r: Step)
    ensures r.peer == p && r.notify == None
    ensures !p.hasChannel ==> r.out == []
    ensures ChannelOpen(p) ==> r.out == [Prim(ChannelSend(text))]
    ensures p.hasChannel && !ChannelOpen(p) ==> r.out == [Raised]
  {
    if !p.hasChannel then Step(p, [], None)
    else if p.ready then Step(p, [Prim(ChannelSend(text))], None)
    else Step(p, [Raised], None)
  }

  /** The environment's events, each handled by the handler the source installs
      for it; an event whose handler is not installed does nothing. */
  function OnEvent(p: Peer, ev: Event): (r: Step)
    ensures EdgeOnly(p, r)
    ensures r.peer.id == p.id && r.peer.isOffering == p.isOffering && r.peer.conn == p.conn
    ensures ev.IceGathered? ==>
      && r.peer == p
      && r.out == (if p.conn != NoConn && Present(ev.candidate) then [SignalIce(p.id, ev.candidate.value)] else [])
    ensures ev.OfferCreated? ==>
      r.out == (if p.offerPending then [Prim(SetLocal(ev.offer)), SignalOffer(p.id, ev.offer)] else [])
    ensures (ev.OfferCreated? || ev.OfferFailed?) ==> r.peer == p.(offerPending := false)
    ensures ev.OfferFailed? ==> r.out == []
    ensures ev.AnswerCreated? ==>
      r.out == (if p.answersPending > 0 then [Prim(SetLocal(ev.answer)), SignalAnswer(p.id, ev.answer)] else [])
    ensures (ev.AnswerCreated? || ev.AnswerFailed?) ==>
      r.peer == p.(answersPending := if p.answersPending > 0 then p.answersPending - 1 else 0)
    ensures ev.AnswerFailed? ==> r.out == []
    ensures ev.ChannelArrived? ==>
      && r.out == []
      && r.peer == p.(hasChannel := p.hasChannel || (p.conn != NoConn && !p.isOffering))
    ensures ev.ChannelOpened? ==> r.out == [] && r.peer.ready == (p.ready || p.hasChannel)
    ensures ev.ChannelClosed? ==> r.out == [] && r.peer.ready == (p.ready && !p.hasChannel)
    ensures ev.ChannelMessage? ==> r.peer == p && r.out == (if p.hasChannel then [Received(ev.text)] else [])
  {
    match ev
    case IceGathered(c) =>
      if p.conn != NoConn && Present(c) then Step(p, [SignalIce(p.id, c.value)], None)
      else Step(p, [], None)
    case OfferCreated(offer) =>
      if p.offerPending then Step(p.(offerPending := false), [Prim(SetLocal(offer)), SignalOffer(p.id, offer)], None)
      else Step(p, [], None)
    case OfferFailed =>
      Step(p.(offerPending := false), [], None)
    case AnswerCreated(answer) =>
      if p.answersPending > 0 then
        Step(p.(answersPending := p.answersPending - 1), [Prim(SetLocal(answer)), SignalAnswer(p.id, answer)], None)
      else Step(p, [], None)
    case AnswerFailed =>
      if p.answersPending > 0 then Step(p.(answersPending := p.answersPending - 1), [], None)
      else Step(p, [], None)
    case ChannelArrived =>
      if p.conn != NoConn && !p.isOffering then Step(p.(hasChannel := true), [], None)
      else Step(p, [], None)
    case ChannelOpened =>
      if p.hasChannel then CallOnStateChange(p, true) else Step(p, [], None)
    case ChannelClosed =>
      if p.hasChannel then CallOnStateChange(p, false) else Step(p, [], None)
    case ChannelMessage(text) =>
      if p.hasChannel then Step(p, [Received(text)], None) else Step(p, [], None)
  }

  /** One input, dispatched to its handler. */
  function Apply(p: Peer, i: Input): (r: Step)
    ensures EdgeOnly(p, r)
    ensures Coherent(p) ==> Coherent(r.peer)
    ensures r.peer.id == p.id && r.peer.isOffering == p.isOffering
  {
    match i
    case Init(config) => Initialize(p, config)
    case Destroy => Teardown(p)
    case AddIceCandidate(c) => AddRemoteCandidate(p, c)
    case ProcessOffer(offer) => AcceptOffer(p, offer)
    case ProcessAnswer(answer) => AcceptAnswer(p, answer)
    case SendMsg(text) => Send(p, text)
    case Env(ev) => OnEvent(p, ev)
  }

  /** The session after a sequence of inputs. */
  function Final(p: Peer, inputs: seq<Input>): Peer
    decreases |inputs|
  {
    if inputs == [] then p else Final(Apply(p, inputs[0]).peer, inputs[1..])
  }

  /** The readiness notifications raised along a sequence of inputs, in order. */
  function Notifications(p: Peer, inputs: seq<Input>): seq<bool>
    decreases |inputs|
  {
    if inputs == [] then []
    else
      var r := Apply(p, inputs[0]);
      (if r.notify.Some? then [r.notify.value] else []) + Notifications(r.peer, inputs[1..])
  }

  /** Everything the session did besides notifying, along a sequence of inputs. */
  function Outputs(p: Peer, inputs: seq<Input>): seq<Out>
    decreases |inputs|
  {
    if inputs == [] then []
    else
      var r := Apply(p, inputs[0]);
      r.out + Outputs(r.peer, inputs[1..])
  }
}

=== FILE: peer_lemmas.dfy ===
/** Properties of one session across several handlers (messaging/src/peer.ts). */
module PeerLemmas {
  import opened Values
  import opened Peer

  /** Along any sequence of inputs the readiness callback is edge-triggered:
      each notification differs from the one before it (the first from the
      starting state), and the last one is the final value of `ready`. */
  lemma {:induction false} NotificationsAlternate(p: Peer, inputs: seq<Input>)
    ensures Alternates(p.ready, Notifications(p, inputs))
    ensures LastOr(p.ready, Notifications(p, inputs)) == Final(p, inputs).ready
    decreases |inputs|
  {
    if inputs != [] {
      var r := Apply(p, inputs[0]);
      NotificationsAlternate(r.peer, inputs[1..]);
      var rest := Notifications(r.peer, inputs[1..]);
      if r.notify.Some? {
        assert Notifications(p, inputs) == [r.notify.value] + rest;
        assert ([r.notify.value] + rest)[1..] == rest;
      } else {
        assert Notifications(p, inputs) == rest;
      }
    }
  }

  /** A second `destroy`, or a channel close after `destroy`, changes nothing
      and notifies nobody. */
  lemma DestroyIsIdempotent(p: Peer)
    ensures Teardown(Teardown(p).peer).peer == Teardown(p).peer
    ensures Teardown(Teardown(p).peer).notify == None
    ensures OnEvent(Teardown(p).peer, ChannelClosed) == Step(Teardown(p).peer, [], None)
  {
  }

  /** `init` without a configuration leaves a new session untouched, and then
      every operation that needs a connection does nothing. */
  lemma InitWithoutConfigIsInert(id: string, isOffering: bool, config: Option<Json>,
                                 candidate: Option<Json>, sdp: Option<Json>, gathered: Option<Json>,
                                 text: string)
    requires !Present(config)
    ensures Initialize(New(id, isOffering), config).peer == New(id, isOffering)
    ensures Initialize(New(id, isOffering), config).out == []
    ensures AddRemoteCandidate(New(id, isOffering), candidate).out == []
    ensures AcceptOffer(New(id, isOffering), sdp) == Step(New(id, isOffering), [], None)
    ensures AcceptAnswer(New(id, isOffering), sdp).out == []
    ensures OnEvent(New(id, isOffering), IceGathered(gathered)).out == []
    ensures OnEvent(New(id, isOffering), ChannelArrived) == Step(New(id, isOffering), [], None)
    ensures Send(New(id, isOffering), text).out == []
  {
  }

  /** An offerer's `init` opens a channel and starts exactly one offer; when
      the offer completes it is relayed once, addressed to this session's id,
      and a repeated completion relays nothing. */
  lemma OffererSignalsOneOffer(id: string, config: Option<Json>, offer: Json, again: Json)
    requires Present(config)
    ensures var s1 := Initialize(New(id, true), config);
      && s1.peer.hasChannel
      && s1.out == [Prim(CreateConn(config.value)), Prim(CreateChannel("data")), Prim(CreateOffer)]
      && var s2 := OnEvent(s1.peer, OfferCreated(offer));
         && s2.out == [Prim(SetLocal(offer)), SignalOffer(id, offer)]
         && OnEvent(s2.peer, OfferCreated(again)).out == []
  {
  }

  /** A failed offer relays nothing, leaves the session as `init` left it
      (except that no offer is outstanding any more), and a late completion is ignored. */
  lemma OfferFailureIsSilent(id: string, config: Option<Json>, offer: Json)
    requires Present(config)
    ensures var s1 := Initialize(New(id, true), config);
      && var s2 := OnEvent(s1.peer, OfferFailed);
         && s2.out == [] && s2.notify == None
         && s2.peer == s1.peer.(offerPending := false)
         && OnEvent(s2.peer, OfferCreated(offer)).out == []
  {
  }

  /** An answerer's `init` creates only the connection: no channel, no offer,
      nothing relayed. Readiness comes once the remote channel arrives and opens. */
  lemma AnswererWaitsForChannel(id: string, config: Option<Json>)
    requires Present(config)
    ensures var s1 := Initialize(New(id, false), config);
      && s1.out == [Prim(CreateConn(config.value))]
      && !s1.peer.hasChannel && !s1.peer.offerPending
      && OnEvent(s1.peer, ChannelOpened).notify == None
      && var s2 := OnEvent(s1.peer, ChannelArrived);
         && s2.peer.hasChannel
         && OnEvent(s2.peer, ChannelOpened).notify == Some(true)
  {
  }

  /** `processOffer` on a session with a connection yields, once the answer
      is created, exactly one answer relayed to this session's id. */
  lemma OneAnswerPerOffer(p: Peer, offer: Option<Json>, answer: Json)
    requires p.conn != NoConn
    ensures var s1 := AcceptOffer(p, offer);
      && SignalsNothing(s1.out)
      && var s2 := OnEvent(s1.peer, AnswerCreated(answer));
         && s2.out == [Prim(SetLocal(answer)), SignalAnswer(p.id, answer)]
         && s2.peer == p
  {
  }

  /** A gathered candidate is relayed to this session's id; the end-of-gathering
      marker (a null candidate) is not. */
  lemma GatheredCandidateRelay(p: Peer, c: Json)
    requires p.conn != NoConn
    ensures OnEvent(p, IceGathered(None)).out == []
    ensures OnEvent(p, IceGathered(Some(JNull))).out == []
    ensures Truthy(c) ==> OnEvent(p, IceGathered(Some(c))).out == [SignalIce(p.id, c)]
  {
  }

  /** An answering session never sends an offer, whatever happens to it: only
      an offerer's `init` starts one. */
  lemma {:induction false} AnswererNeverOffers(p: Peer, inputs: seq<Input>)
    requires !p.isOffering && !p.offerPending
    ensures forall i :: 0 <= i < |Outputs(p, inputs)| ==> !Outputs(p, inputs)[i].SignalOffer?
    decreases |inputs|
  {
    if inputs != [] {
      var r := Apply(p, inputs[0]);
      assert !r.peer.offerPending;
      assert forall i :: 0 <= i < |r.out| ==> !r.out[i].SignalOffer?;
      AnswererNeverOffers(r.peer, inputs[1..]);
    }
  }

  /** A session that is not ready and whose connection is closed (or was never
      made) stays that way under any event the browser can deliver. */
  lemma IdleStaysIdle(p: Peer, ev: Event)
    requires Idle(p) && EnvSound(p, ev)
    ensures Idle(OnEvent(p, ev).peer)
  {
  }
}

=== FILE: protocol.dfy ===
/** How the two halves of the signaling protocol fit together: what the relay
    (signaling/main.py) writes is what the browser client
    (messaging/src/signaling.ts, messaging/src/engine.ts) understands. */
module Protocol {
  import opened Values
  import Signaling
  import SignalingLemmas
  import Relay
  import Engine
  import EngineLemmas

  /** A targeted message encoded by one client and forwarded by the relay
      makes, at the receiving client, exactly the matching call addressed to
      the sender's id, with the payload unchanged. */
  lemma {:induction false} ForwardedSignalRoundTrip(k: Signaling.Signal, target: string, payload: Json, sender: string)
    requires sender != ""
    ensures var sent := Signaling.Encode(k, target, payload);
      Signaling.OnMessage(Relay.Forwarded(sent.fields, sender))
        == Signaling.Calls([SignalingLemmas.Expected(k, sender, Some(payload))])
  {
    var sent := Signaling.Encode(k, target, payload);
    var fwd := Relay.Forwarded(sent.fields, sender);
    assert fwd.fields["type"] == JStr(Signaling.TypeName(k));
    assert fwd.fields[Signaling.PayloadKey(k)] == payload;
    SignalingLemmas.TargetedMessageRoutes(k, fwd.fields, sender);
  }

  /** End to end through the relay: a client's `ice`/`offer`/`answer` for a
      registered peer is written to that peer's socket only, and there it
      makes the matching call addressed to the sender. */
  lemma {:induction false} RelayDeliversSignal(r: Relay.Relay, ws: Relay.ConnId, k: Signaling.Signal, target: string, payload: Json)
    requires Relay.Inv(r) && ws in r.handlers && target in r.mgr.sockets
    ensures var o := Relay.Receive(r, ws, Signaling.Encode(k, target, payload));
      && o.relay == r
      && |o.sent| == 1
      && o.sent[0].to == r.mgr.sockets[target]
      && Signaling.OnMessage(o.sent[0].msg)
           == Signaling.Calls([SignalingLemmas.Expected(k, r.handlers[ws], Some(payload))])
  {
    var sender := r.handlers[ws];
    RegisteredIdsAreNonEmpty(r, sender);
    ForwardedSignalRoundTrip(k, target, payload, sender);
  }

  /** A registered id is never empty (its value as a number is at least 1), so
      it is a truthy `src` on the client side. */
  lemma RegisteredIdsAreNonEmpty(r: Relay.Relay, id: string)
    requires Relay.Inv(r) && id in r.mgr.sockets
    ensures id != "" && Truthy(JStr(id))
  {
    assert 1 <= Relay.Value(id);
  }

  /** The welcome the relay writes makes the client call `welcomePeer` for
      each id already registered, in joining order. */
  lemma {:induction false} WelcomeRoundTrip(id: string, existing: seq<string>)
    ensures var d := Signaling.OnMessage(Relay.Welcome(id, existing));
      && d.Calls? && |d.ops| == |existing|
      && forall i :: 0 <= i < |existing| ==> d.ops[i] == Signaling.WelcomePeer(existing[i])
  {
    var w := Relay.Welcome(id, existing);
    assert Signaling.TypeOf(w.fields) == Some("welcome");
    var items := w.fields["peers"].items;
    assert forall i :: 0 <= i < |items| ==> items[i] == JStr(existing[i]);
    assert Signaling.AllStrings(items);
  }

  /** The `addPeer` and `removePeer` notices the relay writes make the client
      add an answering session for, or remove, the id they name. */
  lemma {:induction false} NoticeRoundTrip(id: string)
    requires id != ""
    ensures Signaling.OnMessage(Relay.Notice("addPeer", id)) == Signaling.Calls([Signaling.AddPeer(id)])
    ensures Signaling.OnMessage(Relay.Notice("removePeer", id)) == Signaling.Calls([Signaling.RemovePeer(id)])
  {
    SignalingLemmas.NoticeRoutes(Relay.Notice("addPeer", id).fields, id);
    SignalingLemmas.NoticeRoutes(Relay.Notice("removePeer", id).fields, id);
  }

  /** A client that receives the welcome creates one offering session for each
      peer that was already present, under that peer's id. */
  lemma {:induction false} JoiningClientOffersToEveryone(e: Engine.Engine, id: string, existing: seq<string>)
    requires Engine.HandlesValid(e)
    ensures var r := Engine.OnInbound(e, Relay.Welcome(id, existing)).engine;
      && |r.sessions| == |e.sessions| + |existing|
      && (forall i :: 0 <= i < |existing| ==>
            r.sessions[|e.sessions| + i].id == existing[i] && r.sessions[|e.sessions| + i].isOffering)
      && (forall x :: x in existing ==> x in r.peers)
  {
    WelcomeRoundTrip(id, existing);
    var ops := Signaling.OnMessage(Relay.Welcome(id, existing)).ops;
    EngineLemmas.WelcomeAppendsOfferers(e, existing, ops);
    EngineLemmas.WelcomeTracksListedIds(e, existing, ops);
  }
}

=== FILE: relay.dfy ===
/** The signaling relay (signaling/main.py): a `PeerManager` that hands out ids
    and remembers each peer's socket, and the routing done by `peer_handler`
    when a socket connects, sends a message and goes away.

    Sockets are opaque connection numbers. Each connected socket is served by
    one handler, which knows the id it was given; `handlers` records that. The
    messages the relay writes are returned as `Delivery` values, in order. */
module Relay {
  import opened Values

  type ConnId = nat

  /** `PeerManager`: the id counter and the `peers` dict. A Python dict keeps
      its keys in insertion order; `order` is that order and `sockets` the
      key/value mapping. */
  datatype Manager = Manager(nextPeerId: nat, order: seq<string>, sockets: map<string, ConnId>)

  datatype Relay = Relay(mgr: Manager, handlers: map<ConnId, string>)

  /** One `ws.send(json.dumps(...))`. */
  datatype Delivery = Delivery(to: ConnId, msg: Json)

  datatype Outcome = Outcome(relay: Relay, sent: seq<Delivery>)

  /** The manager the module creates at import time. */
  const NewManager: Manager := Manager(1, [], map[])

  const Start: Relay := Relay(NewManager, map[])

  // ---------------------------------------------------------------------------
  // `str(int)`: decimal digits without leading zeros.

  function Digit(d: nat): (c: char)
    requires d < 10
    ensures '0' <= c <= '9'
  {
    (48 + d) as char
  }

  /** The value of a digit character (meaningful for '0'..'9'). */
  function DigitValue(c: char): int {
    c as int - 48
  }

  /** `str(n)` for a non-negative integer. */
  function Decimal(n: nat): (s: string)
    ensures |s| >= 1
    ensures forall i :: 0 <= i < |s| ==> '0' <= s[i] <= '9'
    ensures s[0] == '0' ==> n == 0
    decreases n
  {
    if n < 10 then [Digit(n)] else Decimal(n / 10) + [Digit(n % 10)]
  }

  /** `int(s)` for a string of decimal digits: the partner of `Decimal`. */
  function Value(s: string): int
    decreases |s|
  {
    if s == [] then 0 else Value(s[..|s| - 1]) * 10 + DigitValue(s[|s| - 1])
  }

  /** Reading back what `str` wrote gives the number again. */
  lemma {:induction false} DecimalRoundTrip(n: nat)
    ensures Value(Decimal(n)) == n
    decreases n
  {
    if n < 10 {
      assert Decimal(n)[..0] == [];
    } else {
      var d := Decimal(n / 10);
      DecimalRoundTrip(n / 10);
      assert (d + [Digit(n % 10)])[..|d|] == d;
    }
  }

  /** Different counters give different ids. */
  lemma DecimalInjective(a: nat, b: nat)
    requires Decimal(a) == Decimal(b)
    ensures a == b
  {
    DecimalRoundTrip(a);
    DecimalRoundTrip(b);
  }

  // ---------------------------------------------------------------------------
  // PeerManager.

  /** No element occurs twice. */
  predicate Distinct(s: seq<string>) {
    forall i, j :: 0 <= i < j < |s| ==> s[i] != s[j]
  }

  /** The dict's keys match `order` exactly, once each, and every key is the
      decimal form of a counter value already handed out. */
  predicate Valid(m: Manager) {
    && m.nextPeerId >= 1
    && Distinct(m.order)
    && (forall i :: 0 <= i < |m.order| ==> m.order[i] in m.sockets)
    && (forall id :: id in m.sockets ==> id in m.order)
    && (forall id :: id in m.sockets ==> 1 <= Value(id) < m.nextPeerId)
  }

  /** `gen_peer_id`: returns the counter and advances it. */
  function GenPeerId(m: Manager): (r: (Manager, nat))
    ensures r.1 == m.nextPeerId
    ensures r.0 == m.(nextPeerId := m.nextPeerId + 1)
  {
    (m.(nextPeerId := m.nextPeerId + 1), m.nextPeerId)
  }

  /** `add_peer`: a new key goes to the end of the order; an existing key keeps
      its place and gets the new socket. */
  function AddPeer(m: Manager, id: string, ws: ConnId): (r: Manager)
    ensures r.sockets == m.sockets[id := ws]
    ensures r.nextPeerId == m.nextPeerId
    ensures id !in m.sockets ==> r.order == m.order + [id]
    ensures id in m.sockets ==> r.order == m.order
  {
    Manager(m.nextPeerId, if id in m.sockets then m.order else m.order + [id], m.sockets[id := ws])
  }

  /** `order` without `id`, the rest in the same order (`WithoutKeepsOrder`). */
  function Without(order: seq<string>, id: string): (r: seq<string>)
    ensures forall x :: x in r <==> x in order && x != id
    ensures |r| <= |order|
    ensures id !in order ==> r == order
    decreases |order|
  {
    if order == [] then []
    else (if order[0] == id then [] else [order[0]]) + Without(order[1..], id)
  }

  /** `after` is `before` with the occurrence of `id` cut out and every other
      element left in its place. */
  predicate ClosesGap(before: seq<string>, after: seq<string>, id: string) {
    forall k :: 0 <= k < |before| && before[k] == id ==> after == before[..k] + before[k + 1..]
  }

  /** `remove_peer`: `pop(id, None)`. */
  function RemovePeer(m: Manager, id: string): (r: Manager)
    ensures r.sockets == m.sockets - {id}
    ensures r.nextPeerId == m.nextPeerId
    ensures id !in m.sockets ==> r == m
    ensures id in m.sockets ==> forall x :: x in r.order <==> x in m.order && x != id
    ensures Valid(m) ==> ClosesGap(m.order, r.order, id)
  {
    if id in m.sockets then
      assert Valid(m) ==> ClosesGap(m.order, Without(m.order, id), id) by {
        if Valid(m) {
          forall k | 0 <= k < |m.order| && m.order[k] == id
            ensures Without(m.order, id) == m.order[..k] + m.order[k + 1..]
          {
            WithoutKeepsOrder(m.order, id, k);
          }
        }
      }
      Manager(m.nextPeerId, Without(m.order, id), m.sockets - {id}) else m
  }

  /** `get_all_peer_ids`: the keys in insertion order. */
  function GetAllPeerIds(m: Manager): (r: seq<string>)
    ensures Valid(m) ==> forall id :: id in r <==> id in m.sockets
    ensures Valid(m) ==> Distinct(r)
  {
    m.order
  }

  /** `get_peer_ws`: `None` exactly when the id is absent. */
  function GetPeerWs(m: Manager, id: string): (r: Option<ConnId>)
    ensures r.None? <==> id !in m.sockets
    ensures r.Some? ==> r.value == m.sockets[id]
  {
    if id !in m.sockets then None else Some(m.sockets[id])
  }

  // ---------------------------------------------------------------------------
  // Messages the relay writes.

  function StrArray(ids: seq<string>): (j: Json)
    ensures j.JArr? && |j.items| == |ids|
    ensures forall i :: 0 <= i < |ids| ==> j.items[i] == JStr(ids[i])
  {
    JArr(seq(|ids|, i requires 0 <= i < |ids| => JStr(ids[i])))
  }

  /** `{"type": "welcome", "id": id, "peers": existing}`. */
  function Welcome(id: string, existing: seq<string>): (j: Json)
    ensures j.JObj? && j.fields.Keys == {"type", "id", "peers"}
    ensures j.fields["type"] == JStr("welcome") && j.fields["id"] == JStr(id)
    ensures j.fields["peers"].JArr? && |j.fields["peers"].items| == |existing|
    ensures forall i :: 0 <= i < |existing| ==> j.fields["peers"].items[i] == JStr(existing[i])
  {
    JObj(map["type" := JStr("welcome"), "id" := JStr(id), "peers" := StrArray(existing)])
  }

  /** `{"type": kind, "src": id}` for `addPeer` and `removePeer`. */
  function Notice(kind: string, id: string): (j: Json)
    ensures j.JObj? && j.fields.Keys == {"type", "src"}
    ensures j.fields["type"] == JStr(kind) && j.fields["src"] == JStr(id)
  {
    JObj(map["type" := JStr(kind), "src" := JStr(id)])
  }

  /** The same message written to the socket of each listed peer, in order. */
  function Broadcast(m: Manager, targets: seq<string>, msg: Json): (r: seq<Delivery>)
    requires forall i :: 0 <= i < |targets| ==> targets[i] in m.sockets
    ensures |r| == |targets|
    ensures forall i :: 0 <= i < |r| ==> r[i] == Delivery(m.sockets[targets[i]], msg)
  {
    seq(|targets|, i requires 0 <= i < |targets| => Delivery(m.sockets[targets[i]], msg))
  }

  /** A broadcast depends only on the sockets of the peers it goes to. */
  lemma BroadcastUnaffected(m: Manager, m': Manager, targets: seq<string>, msg: Json)
    requires forall i :: 0 <= i < |targets| ==> targets[i] in m.sockets
    requires forall i :: 0 <= i < |targets| ==> targets[i] in m'.sockets && m'.sockets[targets[i]] == m.sockets[targets[i]]
    ensures Broadcast(m, targets, msg) == Broadcast(m', targets, msg)
  {
  }

  // ---------------------------------------------------------------------------
  // peer_handler.

  /** Each handler's id is registered with that handler's socket, and every
      registered id has its handler. */
  predicate Inv(r: Relay) {
    && Valid(r.mgr)
    && (forall c :: c in r.handlers ==> r.handlers[c] in r.mgr.sockets && r.mgr.sockets[r.handlers[c]] == c)
    && (forall id :: id in r.mgr.sockets ==> r.mgr.sockets[id] in r.handlers && r.handlers[r.mgr.sockets[id]] == id)
  }

  /** A new socket: take the next id, note who was already there, register,
      send the welcome to the newcomer and one `addPeer` to each peer that was
      there before. A socket is a new object, so it is not served yet. */
  function Connect(r: Relay, ws: ConnId): (o: Outcome)
    requires Inv(r) && ws !in r.handlers
    ensures var id := Decimal(r.mgr.nextPeerId);
      && o.relay.mgr.nextPeerId == r.mgr.nextPeerId + 1
      && o.relay.mgr.sockets == r.mgr.sockets[id := ws]
      && o.relay.mgr.order == r.mgr.order + [id]
      && o.relay.handlers == r.handlers[ws := id]
      && |o.sent| == |r.mgr.order| + 1
      && o.sent[0] == Delivery(ws, Welcome(id, r.mgr.order))
      && o.sent[1..] == Broadcast(r.mgr, r.mgr.order, Notice("addPeer", id))
  {
    var (m1, n) := GenPeerId(r.mgr);
    var id := Decimal(n);
    var existing := GetAllPeerIds(m1);
    var m2 := AddPeer(m1, id, ws);
    FreshIdIsNew(r.mgr);
    BroadcastUnaffected(r.mgr, m2, existing, Notice("addPeer", id));
    Outcome(Relay(m2, r.handlers[ws := id]),
            [Delivery(ws, Welcome(id, existing))] + Broadcast(m2, existing, Notice("addPeer", id)))
  }

  /** The message a peer's socket carries when the handler forwards it:
      `target` removed and `src` set to the sender. */
  function Forwarded(fields: map<string, Json>, sender: string): (j: Json)
    ensures j.JObj?
    ensures j.fields.Keys == fields.Keys - {"target"} + {"src"}
    ensures j.fields["src"] == JStr(sender)
    ensures forall k :: k in fields && k != "target" && k != "src" ==> j.fields[k] == fields[k]
  {
    JObj((fields - {"target"})["src" := JStr(sender)])
  }

  /** One received message. It goes out only when it is an object whose
      `target` is a registered id and which has a `type`; otherwise indexing,
      hashing or calling `send` on `None` raises. */
  function Route(m: Manager, sender: string, msg: Json): (d: Option<Delivery>)
    ensures d.Some? <==>
      && msg.JObj? && "type" in msg.fields && "target" in msg.fields
      && msg.fields["target"].JStr? && msg.fields["target"].s in m.sockets
    ensures d.Some? ==> d.value == Delivery(m.sockets[msg.fields["target"].s], Forwarded(msg.fields, sender))
  {
    match msg
    case JObj(fields) =>
      if "target" !in fields || !fields["target"].JStr? then None
      else
        (match GetPeerWs(m, fields["target"].s)
         case None => None
         case Some(to) => if "type" !in fields then None else Some(Delivery(to, Forwarded(fields, sender))))
    case _ => None
  }

  /** The `finally` block: unregister the handler's id and tell each peer
      still registered, in order. */
  function Disconnect(r: Relay, ws: ConnId): (o: Outcome)
    requires Inv(r) && ws in r.handlers
    ensures var id := r.handlers[ws];
      && o.relay.mgr.sockets == r.mgr.sockets - {id}
      && o.relay.handlers == r.handlers - {ws}
      && o.relay.mgr.nextPeerId == r.mgr.nextPeerId
      && (forall x :: x in o.relay.mgr.order <==> x in r.mgr.order && x != id)
      && |o.sent| == |o.relay.mgr.order|
      && forall i :: 0 <= i < |o.sent| ==>
           o.relay.mgr.order[i] in r.mgr.sockets
           && o.sent[i] == Delivery(r.mgr.sockets[o.relay.mgr.order[i]], Notice("removePeer", id))
  {
    var id := r.handlers[ws];
    var m1 := RemovePeer(r.mgr, id);
    RemovePeerKeepsValid(r.mgr, id);
    var others := m1.order;
    Outcome(Relay(m1, r.handlers - {ws}), Broadcast(m1, others, Notice("removePeer", id)))
  }

  /** The peers left after a disconnect are told in the order they joined:
      the departed id's slot is closed and nobody else moves. */
  lemma DisconnectKeepsOrder(r: Relay, ws: ConnId)
    requires Inv(r) && ws in r.handlers
    ensures ClosesGap(r.mgr.order, Disconnect(r, ws).relay.mgr.order, r.handlers[ws])
  {
    assert Disconnect(r, ws).relay.mgr == RemovePeer(r.mgr, r.handlers[ws]);
  }

  /** One message on a served socket: forwarded, or the loop ends and the
      handler's peer is removed. */
  function Receive(r: Relay, ws: ConnId, msg: Json): (o: Outcome)
    requires Inv(r) && ws in r.handlers
    ensures Route(r.mgr, r.handlers[ws], msg).Some? ==>
      o == Outcome(r, [Route(r.mgr, r.handlers[ws], msg).value])
    ensures Route(r.mgr, r.handlers[ws], msg).None? ==> o == Disconnect(r, ws)
  {
    match Route(r.mgr, r.handlers[ws], msg)
    case Some(d) => Outcome(r, [d])
    case None => Disconnect(r, ws)
  }

  /** What can happen to the relay. */
  datatype Event = Opened(ws: ConnId) | Message(ws: ConnId, msg: Json) | Closed(ws: ConnId)

  /** One event. Events the environment cannot produce (a second `Opened` for
      a socket that is served, traffic on a socket that is not) change nothing. */
  function Step(r: Relay, ev: Event): (o: Outcome)
    requires Inv(r)
    ensures Inv(o.relay)
    ensures ev.Opened? && ev.ws !in r.handlers ==> ev.ws in o.relay.handlers && |o.relay.mgr.sockets| == |r.mgr.sockets| + 1
    ensures ev.Closed? && ev.ws in r.handlers ==> ev.ws !in o.relay.handlers && r.handlers[ev.ws] !in o.relay.mgr.sockets
    ensures !ev.Opened? && ev.ws !in r.handlers ==> o == Outcome(r, [])
    ensures ev.Opened? && ev.ws in r.handlers ==> o == Outcome(r, [])
  {
    match ev
    case Opened(ws) => if ws in r.handlers then Outcome(r, []) else RegisterKeepsInv(r, ws); Connect(r, ws)
    case Message(ws, msg) => if ws !in r.handlers then Outcome(r, []) else ReceiveKeepsInv(r, ws, msg); Receive(r, ws, msg)
    case Closed(ws) => if ws !in r.handlers then Outcome(r, []) else DisconnectKeepsInv(r, ws); Disconnect(r, ws)
  }

  function Run(r: Relay, evs: seq<Event>): (o: Outcome)
    requires Inv(r)
    ensures Inv(o.relay)
    decreases |evs|
  {
    if evs == [] then Outcome(r, [])
    else
      var first := Step(r, evs[0]);
      var rest := Run(first.relay, evs[1..]);
      Outcome(rest.relay, first.sent + rest.sent)
  }

  // ---------------------------------------------------------------------------
  // The invariant holds throughout.

  lemma StartInv()
    ensures Inv(Start)
  {
  }

  /** The next id is not registered yet: it is larger than every id handed out. */
  lemma {:induction false} FreshIdIsNew(m: Manager)
    requires Valid(m)
    ensures Decimal(m.nextPeerId) !in m.sockets
  {
    DecimalRoundTrip(m.nextPeerId);
  }

  /** Registering the id just handed out keeps the order and the dict in step. */
  lemma {:induction false} RegisterFreshKeepsValid(m: Manager, ws: ConnId)
    requires Valid(m)
    ensures var id := Decimal(m.nextPeerId);
      Valid(Manager(m.nextPeerId + 1, m.order + [id], m.sockets[id := ws]))
  {
    var id := Decimal(m.nextPeerId);
    FreshIdIsNew(m);
    DecimalRoundTrip(m.nextPeerId);
    var m' := Manager(m.nextPeerId + 1, m.order + [id], m.sockets[id := ws]);
    assert id !in m.order;
    forall i, j | 0 <= i < j < |m'.order|
      ensures m'.order[i] != m'.order[j]
    {
      if j == |m.order| {
        assert m'.order[i] == m.order[i];
      }
    }
  }

  /** Serving a new socket under the id just handed out keeps the handlers
      and the registered ids in step. */
  lemma {:induction false} RegisterKeepsInv(r: Relay, ws: ConnId)
    requires Inv(r) && ws !in r.handlers
    ensures var id := Decimal(r.mgr.nextPeerId);
      Inv(Relay(Manager(r.mgr.nextPeerId + 1, r.mgr.order + [id], r.mgr.sockets[id := ws]), r.handlers[ws := id]))
  {
    var id := Decimal(r.mgr.nextPeerId);
    FreshIdIsNew(r.mgr);
    RegisterFreshKeepsValid(r.mgr, ws);
    var o := Relay(Manager(r.mgr.nextPeerId + 1, r.mgr.order + [id], r.mgr.sockets[id := ws]), r.handlers[ws := id]);
    forall c | c in o.handlers
      ensures o.handlers[c] in o.mgr.sockets && o.mgr.sockets[o.handlers[c]] == c
    {
      if c != ws {
        assert r.handlers[c] != id;
      }
    }
  }

  lemma {:induction false} WithoutKeepsDistinct(order: seq<string>, id: string)
    requires Distinct(order)
    ensures Distinct(Without(order, id))
    decreases |order|
  {
    if order != [] {
      WithoutKeepsDistinct(order[1..], id);
      var rest := Without(order[1..], id);
      var r := Without(order, id);
      assert order[0] !in order[1..];
      assert order[0] !in rest;
      if order[0] != id {
        assert r == [order[0]] + rest;
        forall i, j | 0 <= i < j < |r|
          ensures r[i] != r[j]
        {
          if i == 0 {
            assert r[0] == order[0];
            assert r[j] == rest[j - 1];
            assert rest[j - 1] in rest;
          } else {
            assert r[i] == rest[i - 1] && r[j] == rest[j - 1];
          }
        }
      } else {
        assert r == rest;
      }
    }
  }

  /** Removing the one occurrence of `id` at position `k` closes the gap and
      keeps everything else in its place: a dict `pop` does not reorder the
      remaining keys. */
  lemma {:induction false} WithoutKeepsOrder(order: seq<string>, id: string, k: nat)
    requires Distinct(order)
    requires k < |order| && order[k] == id
    ensures Without(order, id) == order[..k] + order[k + 1..]
    decreases |order|
  {
    if k == 0 {
      forall j | 0 <= j < |order[1..]|
        ensures order[1..][j] != id
      {
        assert order[1..][j] == order[j + 1];
      }
      assert id !in order[1..];
      assert order[..0] + order[1..] == order[1..];
    } else {
      assert order[0] != order[k];
      WithoutKeepsOrder(order[1..], id, k - 1);
      assert order[1..][..k - 1] == order[1..k];
      assert order[1..][k..] == order[k + 1..];
      assert order[..k] == [order[0]] + order[1..k];
    }
  }

  /** Removing an id keeps the order and the dict in step. */
  lemma RemovePeerKeepsValid(m: Manager, id: string)
    requires Valid(m)
    ensures Valid(RemovePeer(m, id))
  {
    WithoutKeepsDistinct(m.order, id);
    var r := RemovePeer(m, id);
    assert id in m.sockets ==> r.order == Without(m.order, id);
    forall i | 0 <= i < |r.order|
      ensures r.order[i] in r.sockets
    {
      assert r.order[i] in m.order;
    }
  }

  lemma {:induction false} DisconnectKeepsInv(r: Relay, ws: ConnId)
    requires Inv(r) && ws in r.handlers
    ensures Inv(Disconnect(r, ws).relay)
  {
    var id := r.handlers[ws];
    RemovePeerKeepsValid(r.mgr, id);
    var o := Disconnect(r, ws).relay;
    var m := o.mgr;
    assert m == RemovePeer(r.mgr, id);
    forall c | c in o.handlers
      ensures o.handlers[c] in m.sockets && m.sockets[o.handlers[c]] == c
    {
      assert r.mgr.sockets[r.handlers[c]] == c;
    }
    assert forall x :: x in m.sockets ==> m.sockets[x] in o.handlers && o.handlers[m.sockets[x]] == x;
  }

  lemma ReceiveKeepsInv(r: Relay, ws: ConnId, msg: Json)
    requires Inv(r) && ws in r.handlers
    ensures Inv(Receive(r, ws, msg).relay)
  {
    if Route(r.mgr, r.handlers[ws], msg).None? {
      DisconnectKeepsInv(r, ws);
    }
  }
}

=== FILE: relay_lemmas.dfy ===
/** Properties of the relay (signaling/main.py) over single events and runs. */
module RelayLemmas {
  import opened Values
  import opened Relay

  /** The ids `k` calls of `gen_peer_id` return, and the manager after them. */
  function Issue(m: Manager, k: nat): (r: (Manager, seq<nat>))
    ensures r.0 == m.(nextPeerId := m.nextPeerId + k)
    ensures |r.1| == k
    decreases k
  {
    if k == 0 then (m, [])
    else
      var (m1, n) := GenPeerId(m);
      var rest := Issue(m1, k - 1);
      (rest.0, [n] + rest.1)
  }

  /** A fresh manager hands out 1, 2, 3, ... and their decimal forms never repeat. */
  lemma {:induction false} IdsCountFromOne(m: Manager, k: nat)
    ensures forall i :: 0 <= i < k ==> Issue(m, k).1[i] == m.nextPeerId + i
    ensures forall i, j :: 0 <= i < j < k ==> Decimal(Issue(m, k).1[i]) != Decimal(Issue(m, k).1[j])
    decreases k
  {
    if k > 0 {
      var m1 := GenPeerId(m).0;
      IdsCountFromOne(m1, k - 1);
      var ns := Issue(m, k).1;
      assert ns == [m.nextPeerId] + Issue(m1, k - 1).1;
      forall i | 0 <= i < k
        ensures ns[i] == m.nextPeerId + i
      {
        if i > 0 {
          assert ns[i] == Issue(m1, k - 1).1[i - 1];
        }
      }
      forall i, j | 0 <= i < j < k
        ensures Decimal(ns[i]) != Decimal(ns[j])
      {
        if Decimal(ns[i]) == Decimal(ns[j]) {
          DecimalInjective(ns[i], ns[j]);
        }
      }
    }
  }

  /** The ids of a fresh manager are "1", "2", "3", ... */
  lemma FirstIds()
    ensures Issue(NewManager, 3).1 == [1, 2, 3]
    ensures Decimal(1) == "1" && Decimal(12) == "12"
  {
    IdsCountFromOne(NewManager, 3);
  }

  /** Distinct registered ids have distinct sockets. */
  lemma SocketsDistinct(r: Relay, a: string, b: string)
    requires Inv(r) && a in r.mgr.sockets && b in r.mgr.sockets && a != b
    ensures r.mgr.sockets[a] != r.mgr.sockets[b]
  {
  }

  /** A broadcast to distinct ids writes to distinct sockets, one per id. */
  lemma {:induction false} BroadcastOncePerPeer(r: Relay, targets: seq<string>, msg: Json)
    requires Inv(r) && Distinct(targets)
    requires forall i :: 0 <= i < |targets| ==> targets[i] in r.mgr.sockets
    ensures var b := Broadcast(r.mgr, targets, msg);
      && (forall i, j :: 0 <= i < j < |b| ==> b[i].to != b[j].to)
      && (forall i :: 0 <= i < |b| ==> b[i].msg == msg)
      && (forall x :: x in targets ==> exists i :: 0 <= i < |b| && b[i].to == r.mgr.sockets[x])
  {
    var b := Broadcast(r.mgr, targets, msg);
    forall i, j | 0 <= i < j < |b|
      ensures b[i].to != b[j].to
    {
      SocketsDistinct(r, targets[i], targets[j]);
    }
    forall x | x in targets
      ensures exists i :: 0 <= i < |b| && b[i].to == r.mgr.sockets[x]
    {
      var i :| 0 <= i < |targets| && targets[i] == x;
      assert b[i].to == r.mgr.sockets[x];
    }
  }

  /** The welcome's list names exactly the given ids, in order. */
  lemma {:induction false} StrArrayNames(ids: seq<string>, x: string)
    ensures JStr(x) in StrArray(ids).items <==> x in ids
  {
    var items := StrArray(ids).items;
    if x in ids {
      var i :| 0 <= i < |ids| && ids[i] == x;
      assert items[i] == JStr(x);
    }
  }

  /** The welcome goes to the newcomer, carries its id, and lists exactly the
      ids registered before it joined, in joining order; its own id is never
      among them. */
  lemma WelcomeListsOthers(r: Relay, ws: ConnId)
    requires Inv(r) && ws !in r.handlers
    ensures var o := Connect(r, ws); var id := Decimal(r.mgr.nextPeerId);
      && o.sent[0].to == ws
      && o.sent[0].msg.fields["type"] == JStr("welcome")
      && o.sent[0].msg.fields["id"] == JStr(id)
      && var peers := o.sent[0].msg.fields["peers"];
         && peers.JArr?
         && (forall x :: JStr(x) in peers.items <==> x in r.mgr.sockets)
         && JStr(id) !in peers.items
         && (forall i :: 0 <= i < |peers.items| ==> peers.items[i] == JStr(r.mgr.order[i]))
  {
    FreshIdIsNew(r.mgr);
    var id := Decimal(r.mgr.nextPeerId);
    var o := Connect(r, ws);
    assert o.sent[0] == Delivery(ws, Welcome(id, r.mgr.order));
    var peers := StrArray(r.mgr.order);
    forall x
      ensures JStr(x) in peers.items <==> x in r.mgr.sockets
    {
      StrArrayNames(r.mgr.order, x);
    }
    StrArrayNames(r.mgr.order, id);
  }

  /** A notice broadcast to every registered peer reaches each registered
      peer's socket once, and no socket of a handler not yet serving. */
  lemma {:induction false} NoticeReachesEveryPeerOnce(r: Relay, ws: ConnId, msg: Json)
    requires Inv(r) && ws !in r.handlers
    ensures var b := Broadcast(r.mgr, r.mgr.order, msg);
      && (forall i :: 0 <= i < |b| ==> b[i].msg == msg && b[i].to != ws)
      && (forall i, j :: 0 <= i < j < |b| ==> b[i].to != b[j].to)
      && (forall x :: x in r.mgr.sockets ==> exists i :: 0 <= i < |b| && b[i].to == r.mgr.sockets[x])
      && |b| == |r.mgr.sockets|
  {
    BroadcastOncePerPeer(r, r.mgr.order, msg);
    DistinctCard(r.mgr.order, r.mgr.sockets.Keys);
  }

  /** Every peer that was there before receives exactly one `addPeer` whose
      `src` is the newcomer's id; the newcomer receives none. */
  lemma AddPeerOncePerExisting(r: Relay, ws: ConnId)
    requires Inv(r) && ws !in r.handlers
    ensures var o := Connect(r, ws); var id := Decimal(r.mgr.nextPeerId); var notes := o.sent[1..];
      && (forall i :: 0 <= i < |notes| ==> notes[i].msg == Notice("addPeer", id) && notes[i].to != ws)
      && (forall i, j :: 0 <= i < j < |notes| ==> notes[i].to != notes[j].to)
      && (forall x :: x in r.mgr.sockets ==> exists i :: 0 <= i < |notes| && notes[i].to == r.mgr.sockets[x])
      && |notes| == |r.mgr.sockets|
  {
    var id := Decimal(r.mgr.nextPeerId);
    NoticeReachesEveryPeerOnce(r, ws, Notice("addPeer", id));
  }

  /** A list of distinct elements is as long as the set of its elements. */
  lemma {:induction false} DistinctCard(s: seq<string>, keys: set<string>)
    requires Distinct(s)
    requires forall x :: x in keys <==> x in s
    ensures |keys| == |s|
    decreases |s|
  {
    if s != [] {
      var last := s[|s| - 1];
      var init := s[..|s| - 1];
      assert forall x :: x in init ==> x in s;
      assert last !in init;
      forall x
        ensures x in keys - {last} <==> x in init
      {
        if x in s && x != last {
          var i :| 0 <= i < |s| && s[i] == x;
          assert init[i] == x;
        }
      }
      DistinctCard(init, keys - {last});
    } else {
      assert keys == {};
    }
  }

  /** A message to a registered target goes to that target's socket alone, with
      `target` removed, `src` set to the sender, and every other field kept. */
  lemma ForwardSwapsTargetForSrc(r: Relay, ws: ConnId, fields: map<string, Json>, target: string)
    requires Inv(r) && ws in r.handlers
    requires "type" in fields && "target" in fields && fields["target"] == JStr(target) && target in r.mgr.sockets
    ensures var o := Receive(r, ws, JObj(fields));
      && o.relay == r
      && |o.sent| == 1
      && o.sent[0].to == r.mgr.sockets[target]
      && o.sent[0].msg.JObj?
      && "target" !in o.sent[0].msg.fields
      && o.sent[0].msg.fields["src"] == JStr(r.handlers[ws])
      && (forall k :: k in fields && k != "target" && k != "src" ==>
            k in o.sent[0].msg.fields && o.sent[0].msg.fields[k] == fields[k])
  {
  }

  /** A message whose target is not registered reaches nobody: the sender's
      loop ends, it is unregistered, and only `removePeer` notices go out. */
  lemma UnknownTargetDropsSender(r: Relay, ws: ConnId, msg: Json)
    requires Inv(r) && ws in r.handlers
    requires !msg.JObj? || "target" !in msg.fields || !msg.fields["target"].JStr?
             || msg.fields["target"].s !in r.mgr.sockets
    ensures var o := Receive(r, ws, msg);
      && r.handlers[ws] !in o.relay.mgr.sockets
      && ws !in o.relay.handlers
      && forall i :: 0 <= i < |o.sent| ==> o.sent[i].msg == Notice("removePeer", r.handlers[ws])
  {
  }

  /** After a disconnect every remaining peer receives exactly one `removePeer`
      whose `src` is the departed id, and nobody else receives anything. */
  lemma RemovePeerOncePerRemaining(r: Relay, ws: ConnId)
    requires Inv(r) && ws in r.handlers
    ensures var o := Disconnect(r, ws); var id := r.handlers[ws];
      && (forall i :: 0 <= i < |o.sent| ==> o.sent[i].msg == Notice("removePeer", id) && o.sent[i].to != ws)
      && (forall i, j :: 0 <= i < j < |o.sent| ==> o.sent[i].to != o.sent[j].to)
      && (forall x :: x in o.relay.mgr.sockets ==>
            exists i :: 0 <= i < |o.sent| && o.sent[i].to == r.mgr.sockets[x])
  {
    var id := r.handlers[ws];
    var o := Disconnect(r, ws);
    var m1 := RemovePeer(r.mgr, id);
    RemovePeerKeepsValid(r.mgr, id);
    assert o.relay.mgr == m1;
    BroadcastUnaffected(m1, r.mgr, m1.order, Notice("removePeer", id));
    BroadcastOncePerPeer(r, m1.order, Notice("removePeer", id));
    forall i | 0 <= i < |o.sent|
      ensures o.sent[i].to != ws
    {
      SocketsDistinct(r, m1.order[i], id);
    }
  }

  /** `remove_peer` of an id that is not registered changes nothing. */
  lemma RemoveUnknownIsNoOp(m: Manager, id: string)
    requires Valid(m) && id !in m.sockets
    ensures RemovePeer(m, id) == m
    ensures GetPeerWs(m, id) == None
  {
  }
}

=== FILE: signaling.dfy ===
/** The signaling-channel client (`Signaling` in messaging/src/signaling.ts).

    Inbound, it decodes one parsed JSON message and decides which calls to make
    on its single collaborator (`PeerOp`). Outbound, it encodes targeted
    `ice`/`offer`/`answer` messages and hands them to its socket, if it has one.
    Socket I/O is a list of `SocketCall`s returned to the caller. */
module Signaling {
  import opened Values

  /** The calls the channel makes on its collaborator (the `IPeerOp` interface). */
  datatype PeerOp =
    | WelcomePeer(peerId: string)
    | AddPeer(peerId: string)
    | RemovePeer(peerId: string)
    | ProcessIceCandidate(peerId: string, candidate: Option<Json>)
    | ProcessOffer(peerId: string, offer: Option<Json>)
    | ProcessAnswer(peerId: string, answer: Option<Json>)

  /** The outcome of handling one inbound message: the calls made, in order;
      or a TypeError thrown by the handler before any call; or a message whose
      `src` or welcome list holds a non-string value, which the model does not cover. */
  datatype Dispatched = Calls(ops: seq<PeerOp>) | Threw | NotModelled

  /** What the client asks of its WebSocket. */
  datatype SocketCall = Open(url: string) | Close | SendText(msg: Json)

  /** `ws` is null until `start`, and refers to a socket from then on. */
  datatype Client = Client(started: bool)

  /** The three kinds of targeted message this side sends. */
  datatype Signal = IceSignal | OfferSignal | AnswerSignal

  /** How the `src` property of an inbound message reads. */
  datatype Src = NoSrc | SrcId(id: string) | SrcOther

  const Initial: Client := Client(false)

  function TypeName(k: Signal): string {
    match k
    case IceSignal => "ice"
    case OfferSignal => "offer"
    case AnswerSignal => "answer"
  }

  /** The property under which the payload of each kind travels. */
  function PayloadKey(k: Signal): string {
    match k
    case IceSignal => "iceCandidate"
    case OfferSignal => "offer"
    case AnswerSignal => "answer"
  }

  /** `msg.type`, when it is a string. */
  function TypeOf(fields: map<string, Json>): Option<string> {
    if "type" in fields && fields["type"].JStr? then Some(fields["type"].s) else None
  }

  /** `!msg.src` is the drop test: absent or falsy means no sender. */
  function SrcOf(fields: map<string, Json>): (r: Src)
    ensures r == NoSrc <==> !Present(Field(fields, "src"))
    ensures r.SrcId? ==> r.id != "" && fields["src"] == JStr(r.id)
  {
    var v := Field(fields, "src");
    if !Present(v) then NoSrc
    else if v.value.JStr? then SrcId(v.value.s)
    else SrcOther
  }

  /** The handler shape shared by `onAddPeer`, `onRemovePeer`, `onIceCandidate`,
      `onOffer` and `onAnswer`: drop the message without a sender, otherwise make
      one call addressed to the sender. */
  function FromSender(fields: map<string, Json>, call: string -> PeerOp): (r: Dispatched)
    ensures SrcOf(fields) == NoSrc ==> r == Calls([])
    ensures SrcOf(fields).SrcId? ==> r == Calls([call(SrcOf(fields).id)])
    ensures SrcOf(fields) == SrcOther ==> r == NotModelled
  {
    match SrcOf(fields)
    case NoSrc => Calls([])
    case SrcId(id) => Calls([call(id)])
    case SrcOther => NotModelled
  }

  /** True when every element of a JSON array is a string. */
  predicate AllStrings(items: seq<Json>) {
    forall i :: 0 <= i < |items| ==> items[i].JStr?
  }

  /** `onWelcome`: one `welcomePeer` per listed id, in list order, whatever `src`
      says; a `peers` value that is not an array has no `forEach` and throws. */
  function OnWelcome(fields: map<string, Json>): (r: Dispatched)
    ensures ("peers" !in fields || !fields["peers"].JArr?) ==> r == Threw
    ensures r.Calls? ==> "peers" in fields && fields["peers"].JArr?
    ensures r.Calls? ==> |r.ops| == |fields["peers"].items|
    ensures r.Calls? ==> forall i :: 0 <= i < |r.ops| ==>
      r.ops[i].WelcomePeer? && fields["peers"].items[i] == JStr(r.ops[i].peerId)
  {
    if "peers" !in fields || !fields["peers"].JArr? then Threw
    else
      var items := fields["peers"].items;
      if AllStrings(items) then Calls(seq(|items|, i requires 0 <= i < |items| => WelcomePeer(items[i].s)))
      else NotModelled
  }

  /** `onmessage` after `JSON.parse`: dispatch on `type`. Reading `type` of `null`
      throws; any other value, or an unknown type, reaches the default branch
      and calls nothing. */
  function OnMessage(msg: Json): (r: Dispatched)
    ensures msg == JNull ==> r == Threw
    ensures !msg.JObj? && msg != JNull ==> r == Calls([])
    ensures msg.JObj? && TypeOf(msg.fields) == Some("welcome") ==> r == OnWelcome(msg.fields)
    ensures msg.JObj? && TypeOf(msg.fields) !in KnownTypes ==> r == Calls([])
    ensures r.Calls? && msg.JObj? && TypeOf(msg.fields) != Some("welcome") ==> |r.ops| <= 1
  {
    match msg
    case JNull => Threw
    case JObj(fields) =>
      var t := TypeOf(fields);
      if t == Some("welcome") then OnWelcome(fields)
      else if t == Some("addPeer") then FromSender(fields, id => AddPeer(id))
      else if t == Some("removePeer") then FromSender(fields, id => RemovePeer(id))
      else if t == Some("ice") then FromSender(fields, id => ProcessIceCandidate(id, Field(fields, "iceCandidate")))
      else if t == Some("offer") then FromSender(fields, id => ProcessOffer(id, Field(fields, "offer")))
      else if t == Some("answer") then FromSender(fields, id => ProcessAnswer(id, Field(fields, "answer")))
      else Calls([])
    case JBool(_) => Calls([])
    case JNum(_) => Calls([])
    case JStr(_) => Calls([])
    case JArr(_) => Calls([])
  }

  /** The `type` values the switch recognises. */
  const KnownTypes: set<Option<string>> :=
    {Some("welcome"), Some("addPeer"), Some("removePeer"), Some("ice"), Some("offer"), Some("answer")}

  /** The message `signalIceCandidate`/`signalOffer`/`signalAnswer` builds. */
  function Encode(k: Signal, peerId: string, payload: Json): (m: Json)
    ensures m.JObj?
    ensures m.fields.Keys == {"type", "target", PayloadKey(k)}
    ensures m.fields["type"] == JStr(TypeName(k))
    ensures m.fields["target"] == JStr(peerId)
    ensures m.fields[PayloadKey(k)] == payload
    ensures "src" !in m.fields
  {
    JObj(map["type" := JStr(TypeName(k)), "target" := JStr(peerId), PayloadKey(k) := payload])
  }

  /** `start`: creates the socket (every URL is taken to be one the socket
      constructor accepts). */
  function Start(c: Client, url: string): (r: (Client, seq<SocketCall>))
    ensures r.0.started
    ensures r.1 == [Open(url)]
  {
    (Client(true), [Open(url)])
  }

  /** `stop`: closes the socket if there is one; the client itself is unchanged. */
  function Stop(c: Client): (r: seq<SocketCall>)
    ensures !c.started ==> r == []
    ensures c.started ==> r == [Close]
  {
    if c.started then [Close] else []
  }

  /** Sending a targeted message: silently dropped before `start`. */
  function SignalTo(c: Client, k: Signal, peerId: string, payload: Json): (r: seq<SocketCall>)
    ensures !c.started ==> r == []
    ensures c.started ==> |r| == 1 && r[0].SendText? && r[0].msg == Encode(k, peerId, payload)
  {
    if c.started then [SendText(Encode(k, peerId, payload))] else []
  }
}

=== FILE: signaling_lemmas.dfy ===
/** Properties of the signaling client's dispatch and encoding
    (messaging/src/signaling.ts). */
module SignalingLemmas {
  import opened Values
  import opened Signaling

  /** The call a targeted message of kind `k` from `src` should make. */
  function Expected(k: Signal, src: string, payload: Option<Json>): PeerOp {
    match k
    case IceSignal => ProcessIceCandidate(src, payload)
    case OfferSignal => ProcessOffer(src, payload)
    case AnswerSignal => ProcessAnswer(src, payload)
  }

  /** An `ice`, `offer` or `answer` message with a sender makes exactly the
      matching call, addressed to the sender, with the payload as it arrived
      (absent stays absent). */
  lemma TargetedMessageRoutes(k: Signal, fields: map<string, Json>, src: string)
    requires TypeOf(fields) == Some(TypeName(k))
    requires "src" in fields && fields["src"] == JStr(src) && src != ""
    ensures OnMessage(JObj(fields)) == Calls([Expected(k, src, Field(fields, PayloadKey(k)))])
  {
  }

  /** `addPeer` and `removePeer` with a sender make exactly one call for it. */
  lemma NoticeRoutes(fields: map<string, Json>, src: string)
    requires "src" in fields && fields["src"] == JStr(src) && src != ""
    ensures TypeOf(fields) == Some("addPeer") ==> OnMessage(JObj(fields)) == Calls([AddPeer(src)])
    ensures TypeOf(fields) == Some("removePeer") ==> OnMessage(JObj(fields)) == Calls([RemovePeer(src)])
  {
  }

  /** Every peer-addressed type is dropped without a call when `src` is
      missing or falsy. */
  lemma MissingSrcIsDropped(fields: map<string, Json>)
    requires TypeOf(fields) in {Some("addPeer"), Some("removePeer"), Some("ice"), Some("offer"), Some("answer")}
    requires !Present(Field(fields, "src"))
    ensures OnMessage(JObj(fields)) == Calls([])
  {
  }

  /** Each recognised type leads to calls of one kind only, and no two types
      share a kind; an unrecognised type calls nothing. */
  lemma EachTypeHasOneHandler(fields: map<string, Json>)
    ensures var r := OnMessage(JObj(fields));
      && (r.Calls? && |r.ops| > 0 ==> TypeOf(fields) in KnownTypes)
      && (r.Calls? ==> forall i :: 0 <= i < |r.ops| ==>
            && (r.ops[i].WelcomePeer? <==> TypeOf(fields) == Some("welcome"))
            && (r.ops[i].AddPeer? <==> TypeOf(fields) == Some("addPeer"))
            && (r.ops[i].RemovePeer? <==> TypeOf(fields) == Some("removePeer"))
            && (r.ops[i].ProcessIceCandidate? <==> TypeOf(fields) == Some("ice"))
            && (r.ops[i].ProcessOffer? <==> TypeOf(fields) == Some("offer"))
            && (r.ops[i].ProcessAnswer? <==> TypeOf(fields) == Some("answer")))
  {
  }

  /** A welcome calls `welcomePeer` once per listed id, in list order, and
      does not look at `src`. */
  lemma WelcomeIgnoresSrc(fields: map<string, Json>, ids: seq<string>, src: Json)
    requires TypeOf(fields) == Some("welcome")
    requires "peers" in fields && fields["peers"] == JArr(seq(|ids|, i requires 0 <= i < |ids| => JStr(ids[i])))
    ensures OnMessage(JObj(fields)) == OnMessage(JObj(fields["src" := src]))
    ensures OnMessage(JObj(fields)).Calls?
    ensures |OnMessage(JObj(fields)).ops| == |ids|
    ensures forall i :: 0 <= i < |ids| ==> OnMessage(JObj(fields)).ops[i] == WelcomePeer(ids[i])
  {
    var items := fields["peers"].items;
    assert AllStrings(items);
    assert TypeOf(fields["src" := src]) == Some("welcome");
  }

  /** Before `start` nothing is sent and `stop` closes nothing; after it,
      every targeted message goes to the socket as encoded. */
  lemma SilentBeforeStart(k: Signal, peerId: string, payload: Json, url: string)
    ensures Stop(Initial) == []
    ensures SignalTo(Initial, k, peerId, payload) == []
    ensures SignalTo(Start(Initial, url).0, k, peerId, payload) == [SendText(Encode(k, peerId, payload))]
    ensures Stop(Start(Initial, url).0) == [Close]
  {
  }
}

=== FILE: values.dfy ===
/** Values shared by every component: an optional value and the JSON values that
    travel over the signaling socket. Numbers are limited to integers; the
    protocol never relies on fractional numbers. */
module Values {

  datatype Option<+T> = None | Some(value: T)

  /** A parsed JSON value. `JObj` is an object with its own properties. */
  datatype Json =
    | JNull
    | JBool(b: bool)
    | JNum(n: int)
    | JStr(s: string)
    | JArr(items: seq<Json>)
    | JObj(fields: map<string, Json>)

  /** JavaScript truthiness of a JSON value: `null`, `false`, `0` and `""` are falsy. */
  predicate Truthy(j: Json) {
    match j
    case JNull => false
    case JBool(b) => b
    case JNum(n) => n != 0
    case JStr(s) => s != ""
    case JArr(_) => true
    case JObj(_) => true
  }

  /** Truthiness of a property read that may be `undefined` (modelled as `None`). */
  predicate Present(v: Option<Json>) {
    v.Some? && Truthy(v.value)
  }

  /** Reading property `key` of an object: `undefined` when it has no such own property. */
  function Field(fields: map<string, Json>, key: string): (v: Option<Json>)
    ensures v.Some? <==> key in fields
    ensures v.Some? ==> v.value == fields[key]
  {
    if key in fields then Some(fields[key]) else None
  }

  /** True when `s` begins with `prefix` (String.prototype.startsWith). */
  predicate StartsWith(s: string, prefix: string) {
    |prefix| <= |s| && s[..|prefix|] == prefix
  }

  /** Every edge in `ns` differs from the value before it (the first one from `prev`). */
  predicate Alternates(prev: bool, ns: seq<bool>)
    decreases |ns|
  {
    ns == [] || (ns[0] != prev && Alternates(ns[0], ns[1..]))
  }

  /** The last value of `ns`, or `init` when it is empty. */
  function LastOr(init: bool, ns: seq<bool>): bool {
    if ns == [] then init else ns[|ns| - 1]
  }

  /** Edge sequences compose: `a` followed by `b` is edge-only when `b` starts
      from where `a` ended, and ends where `b` ends. */
  lemma {:induction false} AlternatesAppend(prev: bool, a: seq<bool>, b: seq<bool>)
    requires Alternates(prev, a) && Alternates(LastOr(prev, a), b)
    ensures Alternates(prev, a + b)
    ensures LastOr(prev, a + b) == LastOr(LastOr(prev, a), b)
    decreases |a|
  {
    if a != [] {
      assert (a + b)[0] == a[0];
      assert (a + b)[1..] == a[1..] + b;
      assert LastOr(a[0], a[1..]) == LastOr(prev, a);
      AlternatesAppend(a[0], a[1..], b);
    } else {
      assert a + b == b;
    }
  }
}
